=== FILE: README.md ===
# Lumina core state machines in Dafny

This project models the stateful logic of the Lumina lifestyle app as pure
Dafny functions over immutable datatypes, and proves properties of them.

- **Countdown timer** (`lib/timer-store.ts`, module `Timer`). The focus/break
  countdown is anchored to an absolute deadline. `Tick`, `Toggle` (`Pause` /
  `Resume`), `Reset` and `SwitchMode` are transitions `TimerState × now →
  TimerState`. Time is integer milliseconds. `FormatTime` is the `MM:SS`
  display.
- **Task list** (`TaskManager.tsx`, module `Tasks`). Add with trim and blank
  rejection, toggle by id, delete by id, the active-count badge, and the
  write-through to local storage.
- **History and favorites** (`lib/history.ts`, module `History`). Local storage
  is a map from key to an optional parsed list. `None` means the stored text
  does not parse.
- **Suggestion endpoint** (`app/api/suggestions/route.ts`, module
  `Suggestions`). Two static tables, the first-match lookup with fallback to
  entry 0, and the response projection.
- **Style gallery** (`StyleGallery.tsx`, module `StyleGallery`). Wrap-around
  next/prev, the button guards, the dots, and the saved favorite record.
- **Style guide** (`StyleGuide.tsx`, module `StyleGuide`). The look table,
  filtering by identity, the fallback pool, and the random pick. The value of
  `Math.random()` is a parameter.
- **Identity provider** (`IdentityProvider.tsx`, module `Identity`).
  Classification into theme modes, `setIdentity`, and restore on mount.
- **Audio engine lifecycle** (`lib/audio-engine.ts`, module `AudioEngine`).
  Whether each noise channel's buffer source exists, lazy one-time engine
  initialisation, its failure when the host has no audio context, and the
  per-band volume record. No audio is modelled.

Helper modules: `Optional` (option type), `Seqs` (`filter`, `find` and the
`find(...) || table[0]` idiom), `Strings` (`trim`, integer `toString`,
`padStart(2, '0')`), and `Recommendations` (the record types of
`lib/suggestions.ts`).

Parameters stand for host inputs: the wall clock (`now`, `timestamp`),
`crypto.randomUUID()` (`freshId`), `Math.random()` (`u`, a real in [0, 1)), the
presence of `window` (`hasWindow`), the presence of `AudioContext` or
`webkitAudioContext` (`audioAvailable`), and local storage (a map).

Behaviour of the code worth noting:

- Expiry does not clear the deadline. An expired timer is inactive but keeps
  `endTime` (`Timer.ExpiryKeepsDeadline`).
- `progress` is an unclamped quotient. It can exceed 100 when a tick observes
  an instant before the resume (`Timer.ProgressUnclamped`).
- There is no separate start, pause or resume entry point. `toggleTimer` picks
  pause or resume from `isActive`.
- Volumes are stored exactly as given, not clamped to [0, 1]
  (`AudioEngine.VolumesNotClamped`).
- A zero volume never stops a playing channel. Nothing else in the engine
  stops one either.
- The tick's guard `if (!endTimeRef.current)` also treats a deadline of 0 as
  absent. The model keeps this (`Timer.HasDeadline`).

## Model

| member | source | states |
|---|---|---|
| Timer.CeilSeconds | lib/timer-store.ts:27 | The result is the integer ceiling of the milliseconds over 1000: `(r-1)*1000 < ms <= r*1000`. |
| Timer.Tick | lib/timer-store.ts:23-44 | Without a truthy deadline nothing changes. At or past the deadline the timer shows 0, progress 0 and stops. Before it, `timeLeft` is the least whole number of seconds covering the time to the deadline, and progress is its share of the baseline. The deadline, mode and baseline are never touched. |
| Timer.Pause | lib/timer-store.ts:65-73 | Pausing stops the timer and clears the deadline, keeping time left, progress, mode and baseline. |
| Timer.Resume | lib/timer-store.ts:74-88 | Resuming sets the deadline to `now + timeLeft*1000` and activates. The baseline is re-recorded only when the time left is the mode's full length. |
| Timer.Toggle | lib/timer-store.ts:65-89 | Toggling flips `isActive`, never changes the time left, and clears or sets the deadline accordingly. |
| Timer.Reset | lib/timer-store.ts:91-102 | Reset yields a stopped, valid timer with no deadline, progress 100, and time left = baseline = the current mode's full length. |
| Timer.SwitchMode | lib/timer-store.ts:104-117 | Switching flips the mode and yields a stopped, valid timer with the new mode's full length as time left and baseline. |
| Timer.OperationsPreserveValid | lib/timer-store.ts:8-117 | The initial state is valid and every transition keeps validity: baseline = nominal length of the mode, progress derived from time left, active ⇒ deadline set. |
| Timer.ResumeKeepsBaseline | lib/timer-store.ts:83-85 | In every reachable state the fresh-run guard leaves the baseline unchanged, equal to the mode's nominal length. |
| Timer.SwitchModeIsResetOfOtherMode | lib/timer-store.ts:91-117 | Switching equals resetting after flipping the mode. Switching twice equals a reset. |
| Timer.ResumeThenTickKeepsTime | lib/timer-store.ts:23-88 | A resume followed by a tick at the same instant leaves time left and progress as they were. |
| Timer.TickOverridesEarlier | lib/timer-store.ts:23-44 | A tick at a later instant erases every effect of an earlier tick. |
| Timer.TicksDriftFree | lib/timer-store.ts:23-44 | Any non-empty run of ticks at non-decreasing instants ends in the state a single tick at the last instant gives, however many ticks ran. |
| Timer.TicksTimeLeftFromLast | lib/timer-store.ts:24-40 | For any run of ticks, even with the clock going back, the time shown depends only on the last instant, and the deadline is unchanged. |
| Timer.TickMonotone | lib/timer-store.ts:27-41 | As the clock advances, a tick never shows more time left or more progress. |
| Timer.ForwardTickStaysInRange | lib/timer-store.ts:27-41 | After a resume, ticks at later instants show at most the time left at the resume, and progress stays in [0, 100]. |
| Timer.PauseTimeNotCounted | lib/timer-store.ts:65-88 | After a pause and a later resume, the time shown `d` ms after the resume is the paused time left minus `d`, rounded up. The pause length never counts. |
| Timer.ExpiryKeepsDeadline | lib/timer-store.ts:29-37 | An expired timer is inactive with 0 left but still holds its deadline. |
| Timer.ProgressUnclamped | lib/timer-store.ts:41 | A tick at an instant before the resume yields progress above 100. |
| Timer.FocusRunScenario | lib/timer-store.ts:27-32 | A focus run resumed at 0 shows 1 s and is active at 1,499,999 ms. At 1,500,000 ms it shows 0 and is stopped. |
| Timer.FormatTime | lib/timer-store.ts:59-63 | For any s ≥ 0 the display is at least two digits, a colon and two digits, where the minutes read back as `floor(s/60)` and the seconds as `s mod 60`. |
| Timer.FormatTimeIsClock | lib/timer-store.ts:59-63 | For 0 ≤ s < 6000 the display is exactly 5 characters `MM:SS` of digits, with `MM*60 + SS = s` and `SS < 60`. |
| Strings.Trim | components/operations/TaskManager.tsx:39-44 | The trimmed text is the input minus leading and trailing ECMAScript white space, and nothing else. It is empty exactly when the input is all white space. |
| Strings.DecimalRoundTrip | lib/timer-store.ts:62 | Reading back the decimal rendering of a number gives the number. |
| Strings.PaddedDigits | lib/timer-store.ts:62 | A number rendered and padded to two characters is at least two digits that read back as the number, and exactly two below 100. |
| Tasks.Load | components/operations/TaskManager.tsx:21-30 | On mount, a parseable stored list replaces the tasks. A missing or unparseable one leaves them unchanged. |
| Tasks.Save | components/operations/TaskManager.tsx:32-35 | Saving sets the list and stores that same list under `lumina_tasks`, keeping every other key. |
| Tasks.SaveSurvivesReload | components/operations/TaskManager.tsx:21-35 | After a save, a fresh mount over the written storage shows the saved list, whatever it showed before. |
| Tasks.AddTask | components/operations/TaskManager.tsx:37-49 | Blank input changes nothing. Otherwise a new open task with the trimmed, non-empty text goes on top, the old list follows unchanged, the field is cleared, and the list is persisted. |
| Tasks.ToggleAll | components/operations/TaskManager.tsx:52-58 | Length and order are kept. Tasks with the id have `completed` flipped and keep their id and text. All other tasks are identical. |
| Tasks.ToggleTask | components/operations/TaskManager.tsx:51-62 | The board's list becomes the toggled list, which is also what is stored. |
| Tasks.ToggleTwice | components/operations/TaskManager.tsx:52-58 | Toggling the same id twice restores the original list. |
| Tasks.RemoveId | components/operations/TaskManager.tsx:67 | The result holds no task with the id, holds only tasks of the input, and keeps every task without the id. |
| Tasks.DeleteTask | components/operations/TaskManager.tsx:64-68 | The board's list becomes the filtered list, which is also what is stored. |
| Tasks.DeleteKeepsOrder | components/operations/TaskManager.tsx:67 | Deletion distributes over concatenation (order kept) and leaves a list without the id unchanged. Any task carrying the id, inserted anywhere, is dropped without a trace. |
| Seqs.FilterSkipsRejected | components/operations/TaskManager.tsx:67 | A filter ignores a rejected element wherever it sits in the list. |
| Tasks.ActiveCountIsOpenPositions | components/operations/TaskManager.tsx:75 | The ACTIVE badge (`Tasks.ActiveCount`, the length of the open-task filter) equals the number of positions holding a task with `completed = false`. |
| Tasks.AddTaskCountsOneMore | components/operations/TaskManager.tsx:42-47 | A successful add raises the active count by one. A blank add leaves it. |
| History.Read | lib/history.ts:28-38 | Reading returns `[]` without `window`, for a missing key, or for text that does not parse. Otherwise it returns the stored list. `History.GetHistory` (lines 28-38) and `History.GetFavorites` (lines 56-66) are this read on their keys. |
| History.Write | lib/history.ts:24 | After a write, reading the key gives the written list back, and every other key is kept. |
| History.SaveToHistory | lib/history.ts:12-26 | Without `window`: returns nothing, writes nothing. Otherwise the new item is first, the rest are the first `min(49, n)` old entries in order, the length is `min(n+1, 50)`, and the same list is stored and read back. |
| History.Pushed | lib/history.ts:21-22 | One push puts the item first, shifts the old list down by one, and has length `min(old + 1, 50)`. |
| History.SaveManyPushes | lib/history.ts:12-26 | Saving a run of items through storage leaves exactly the list obtained by pushing them in turn. |
| History.PushAllOrder | lib/history.ts:21-22 | Pushing a run gives the run newest first, then the earlier list, cut to 50. A non-empty run gives length `min(old + saves, 50)`. |
| History.RepeatedSavesStayBounded | lib/history.ts:12-26 | After any run of saves, each with its own id, timestamp and recommendation, the stored history is the saves newest first, followed by the earlier history, cut to 50. A non-empty run gives length `min(old + saves, 50)`. |
| History.WithoutId | lib/history.ts:72 | The result holds no entry with the id, only entries of the input, and every entry without the id. |
| History.SaveToFavorites | lib/history.ts:40-54 | Without `window`: returns nothing, writes nothing. Otherwise the new item is first, followed by the old favorites not sharing its id, and that list is stored and read back. |
| History.FreshFavoriteKeepsAll | lib/history.ts:50 | With an id no favorite has, every earlier favorite is kept, in order, behind the new one. |
| History.RemoveFromFavorites | lib/history.ts:68-76 | Without `window`: returns nothing, writes nothing. Otherwise it returns and stores the favorites minus every entry with the id. |
| History.RemoveFavoriteIdempotent | lib/history.ts:72 | Removing the same id again leaves storage unchanged. Removal keeps the others in order and leaves a list without the id intact. |
| Suggestions.ExerciseIndex | app/api/suggestions/route.ts:78 | The chosen exercise is the first entry tagged with the goal or the occasion, with no earlier entry matching. If no entry matches, it is entry 0. |
| Suggestions.FashionIndex | app/api/suggestions/route.ts:79 | The chosen style is the first entry tagged with the occasion or the gender, with no earlier entry matching. If no entry matches, it is entry 0. |
| Suggestions.PickedUnique | app/api/suggestions/route.ts:78-79 | For any keys at most one table entry satisfies the "first match, else entry 0" rule, so the pick is well defined. |
| Suggestions.Respond | app/api/suggestions/route.ts:81-93 | The response copies title, description, duration and intensity of the picked exercise and name, items and palette of the picked style. No tags are copied. `Suggestions.Suggest`, the `POST` handler, is this response on the endpoint's own tables. |
| Seqs.FirstOrHead | app/api/suggestions/route.ts:78-79 | `find(...) \|\| table[0]`: the index is in range; when some entry matches it is the first match, and otherwise it is 0. |
| Suggestions.AgeIgnored | app/api/suggestions/route.ts:6-79 | The response does not depend on the request's age. |
| Suggestions.UnknownRequestFallsBack | app/api/suggestions/route.ts:78-79 | A request whose fields are all absent gets the first exercise and the first style. |
| Suggestions.GenderCanOutrankOccasion | app/api/suggestions/route.ts:50-79 | Table order decides: a male user asking for an event gets the gym style "Iron Rebel", not the event style. |
| StyleGallery.Next | components/features/StyleGallery.tsx:49 | `next` stays in `[0, n)`, advances by one below the last index, and wraps the last index to 0. |
| StyleGallery.Prev | components/features/StyleGallery.tsx:50 | `prev` stays in `[0, n)`, steps back by one above 0, and wraps 0 to `n-1`. |
| StyleGallery.NextPrevInverse | components/features/StyleGallery.tsx:49-50 | `prev(next(i)) = i` and `next(prev(i)) = i` for every index in range. |
| StyleGallery.Step | components/features/StyleGallery.tsx:113-139 | An enabled prev click gives `i-1`, an enabled next click gives `i+1`, disabled clicks change nothing, and a dot click selects that dot. |
| StyleGallery.ClicksStayInRange | components/features/StyleGallery.tsx:113-139 | Any click sequence keeps the index in range, so the guards mean no wrap occurs. Only next clicks reach `min(i + clicks, n-1)`. |
| StyleGallery.FavoriteRecord | components/features/StyleGallery.tsx:36-44 | The saved record has the style on screen and the fixed "Favorite Style" / "N/A" / Low exercise. |
| StyleGallery.SaveFavorite | components/features/StyleGallery.tsx:35-47 | With `window`, the first favorite is the style at the current index with the fresh id. Without `window`, storage is unchanged. |
| StyleGuide.FilteredLooks | components/lifestyle/StyleGuide.tsx:72-74 | The filtered looks are exactly the table looks tagged with the identity, and never more than the table. |
| StyleGuide.FilteredLooksKeepOrder | components/lifestyle/StyleGuide.tsx:72-74 | Filtering keeps table order and multiplicity: it works piecewise, keeps a single look exactly when tagged, and returns an all-tagged table unchanged. |
| StyleGuide.DrawIndex | components/lifestyle/StyleGuide.tsx:80 | For `u` in [0, 1) the index is the floor of `u*n` and lies in `[0, n)`. |
| StyleGuide.DrawIndexHits | components/lifestyle/StyleGuide.tsx:80 | The draw `k / n` selects index `k`, for every `k < n`. |
| StyleGuide.Draw | components/lifestyle/StyleGuide.tsx:80 | The drawn entry is the pool entry `k` with `k <= u * pool size < k + 1`. |
| StyleGuide.Pool | components/lifestyle/StyleGuide.tsx:79 | The pool is the filtered looks when any exist, otherwise the whole table. It is non-empty whenever the table is. |
| StyleGuide.Randomize | components/lifestyle/StyleGuide.tsx:76-82 | For any non-empty table and any `u` in [0, 1), the drawn look is the pool entry `k` with `k <= u * pool size < k + 1`. It is a table look, and it carries the identity whenever any look does. |
| StyleGuide.RandomizeCoversPool | components/lifestyle/StyleGuide.tsx:76-82 | Every pool entry is drawn by some `u` in [0, 1). |
| StyleGuide.EveryIdentityHasLooks | components/lifestyle/StyleGuide.tsx:22-65 | Each of the eight identities matches some look, so its pool is its filtered list. |
| StyleGuide.TransPoolIsAllLooks | components/lifestyle/StyleGuide.tsx:22-65 | `Trans` tags every look, so its pool is the whole table in order. |
| StyleGuide.FallbackOnlyForUnknown | components/lifestyle/StyleGuide.tsx:72-80 | The fallback fires exactly for a value no look carries, never for one of the eight identities. |
| Identity.ThemeFor | components/providers/IdentityProvider.tsx:31-39 | Female ⇔ pink, Male ⇔ blue, a pride identity ⇔ pride, and any other string ⇔ default. |
| Identity.EveryIdentityThemed | components/providers/IdentityProvider.tsx:17-39 | None of the eight identities gets the default theme. |
| Identity.UpdateTheme | components/providers/IdentityProvider.tsx:31-42 | Updating sets both the theme mode and the body attribute to the classification, changing nothing else. |
| Identity.Restore | components/providers/IdentityProvider.tsx:23-29 | A non-empty stored value becomes the identity unchecked, and both the theme mode and the body's `data-theme` attribute follow it. Otherwise nothing changes. |
| Identity.SetIdentity | components/providers/IdentityProvider.tsx:44-48 | Setting any identity string records it, stores it under `lumina_identity`, keeps other keys, and sets the theme mode and body attribute for it. |
| Identity.SetIdentitySurvivesReload | components/providers/IdentityProvider.tsx:23-48 | A reload after `setIdentity` with a non-empty value restores the same identity, theme mode and body attribute. |
| Identity.NothingStoredKeepsDefault | components/providers/IdentityProvider.tsx:20-29 | With nothing stored the state stays Male with the default theme, though Male alone classifies as blue. |
| Identity.UncheckedRestore | components/providers/IdentityProvider.tsx:23-29 | A stored value outside the eight identities is adopted as is, with the default theme. |
| AudioEngine.NewNode | lib/audio-engine.ts:11-17 | A fresh node has gain 0 and no source. |
| AudioEngine.Start | lib/audio-engine.ts:70-77 | After start a source exists. An existing source means nothing changes. A new source loops. |
| AudioEngine.Stop | lib/audio-engine.ts:79-85 | After stop there is no source. Stopping with no source changes nothing. |
| AudioEngine.StartStopIdempotent | lib/audio-engine.ts:70-85 | Start and stop are idempotent, and stop after start equals stop. |
| AudioEngine.SetNodeVolume | lib/audio-engine.ts:87-96 | The gain aims at the value. A playing source is kept whatever the value. Without one, a source starts exactly when the value is positive. |
| AudioEngine.Init | lib/audio-engine.ts:108-120 | Init runs once: it creates one context and fresh white, pink and brown nodes, and a second call changes nothing. On an uninitialised engine it fails exactly when the host has no audio context constructor. |
| AudioEngine.SetVolume | lib/audio-engine.ts:122-130 | The call fails exactly when `init` throws. Otherwise the band's volume becomes the value unclamped, the band's node gets it, the other two bands are unchanged, and the engine is initialised with one context. |
| AudioEngine.NoAudioNoEffect | lib/audio-engine.ts:108-130 | Without an audio context constructor, any run of calls leaves an uninitialised engine exactly as it was: no context, no node, no volume recorded. |
| AudioEngine.PlayingIffEverLoud | lib/audio-engine.ts:87-130 | With audio available, from a fresh engine, at most one context is created, and a band plays exactly when some call gave it a positive volume. |
| AudioEngine.PlayingAfterPrefix | lib/audio-engine.ts:87-130 | From an initialised engine, a band plays after more calls exactly when it played before or a call was positive for it. |
| AudioEngine.PinkUpThenSilentKeepsPlaying | lib/audio-engine.ts:90-129 | Pink at 0.3 then 0 shows volume 0 while pink keeps playing, and the other bands stay silent. |
| AudioEngine.VolumesNotClamped | lib/audio-engine.ts:129 | Volumes of -0.5 and 1.7 are stored and sent to the gain as given. |

## Left out

- Noise sample synthesis (lib/audio-engine.ts:19-68): floating point and `Math.random`. This includes the first loop's writes to the module-level `lastOut`, whose output the second loop overwrites.
- Gain ramps (`setTargetAtTime`) and the audio context's suspend/resume: Web Audio platform behaviour. A node's `gain` is the ramp's target.
- `requestAnimationFrame` scheduling and cancellation in the timer: host scheduling. Ticks are explicit calls with a `now` argument.
- Timer.CeilSeconds: computes the ceiling exactly on integers. It ignores floating-point rounding of `(endTime - now) / 1000`, which cannot matter for realistic timestamps.
- The React render cycle: `toggleTimer` reads `timeLeft` and `isActive` from the last render. The model uses the current state, which is the same once renders are serialised.
- JSON encoding and decoding: a stored list is its parsed value. Stored text that parses to something other than a list (for example `null`) is not modelled.
- Tasks.Load, Tasks.Save, Tasks.AddTask, Tasks.ToggleTask, Tasks.DeleteTask, Identity.Restore, Identity.SetIdentity, History.SaveToHistory, History.SaveToFavorites, History.RemoveFromFavorites, StyleGallery.SaveFavorite: storage access (reads and writes) is assumed to succeed. In the code, `localStorage` access can throw, for example when storage is disabled or the quota is full. The mount effects of the task list and the identity provider call `getItem` outside any `try`, so they throw on a failed read instead of leaving the state unchanged (components/operations/TaskManager.tsx:22, components/providers/IdentityProvider.tsx:24). History reads catch the error and return `[]` (lib/history.ts:31-36), which `History.Read` models. On a failed write, `saveTasks` has already set the shown list, which then differs from the stored one, and `addTask` skips clearing the input (components/operations/TaskManager.tsx:32-48). The history functions throw to their caller before returning (lib/history.ts:24, 52, 74), and so does the gallery's heart button through `saveToFavorites` (components/features/StyleGallery.tsx:45). `setIdentity` has already set the identity, but the theme is not updated (components/providers/IdentityProvider.tsx:44-48).
- Haptic feedback, `console.error`, `preventDefault`/`stopPropagation`, `document.body` beyond the `data-theme` value, and all presentational markup.
- Suggestions.Suggest: a request body that parses to JSON `null` is not modelled. There, destructuring the body throws a TypeError before any lookup (app/api/suggestions/route.ts:5-6), and the endpoint answers with an error, not a suggestion. Any other body destructures to fields that `Request` covers: a string, or `None` for anything else.
- The suggestion endpoint's two-second delay and `request.json()` (I/O). `lib/suggestions.ts`'s `getRecommendation` fetch wrapper is not part of this model.
- components/features/AudioController.tsx, lib/haptics.ts, hooks/use-haptics.ts and lib/theme.tsx are not part of this model.
- `useIdentity`'s error outside a provider: a React context check, not state logic.

=== FILE: audio.dfy ===
/**
 * The channel lifecycle of the ambient-noise engine, without any audio. A
 * `NoiseNode` owns a gain stage and, while it plays, a looping buffer source;
 * the engine creates its audio context and three nodes once, on first use, and
 * keeps the last volume requested per band. Volumes are stored as given: they
 * are not clamped.
 */
module AudioEngine {
  import opened Optional

  datatype Band = White | Pink | Brown

  /** A buffer source node: its buffer is generated when it is created, and it is set to loop. */
  datatype Source = Source(looping: bool)

  /**
   * One band: `gain` is the value the gain parameter was last told to reach,
   * `source` the playing buffer source, if any.
   */
  datatype NoiseNode = NoiseNode(band: Band, gain: real, source: Option<Source>)

  /** The constructor: a silent gain stage and no source. */
  function NewNode(band: Band): (n: NoiseNode)
    ensures n.band == band && n.gain == 0.0 && n.source.None?
  {
    NoiseNode(band, 0.0, None)
  }

  /** `start`: create a looping source unless one is already playing. */
  function Start(n: NoiseNode): (r: NoiseNode)
    ensures r.source.Some? && r.band == n.band && r.gain == n.gain
    ensures n.source.Some? ==> r == n
    ensures n.source.None? ==> r.source.value.looping
  {
    if n.source.Some? then n else n.(source := Some(Source(true)))
  }

  /** `stop`: stop and drop the source, if any. */
  function Stop(n: NoiseNode): (r: NoiseNode)
    ensures r.source.None?
    ensures r.band == n.band && r.gain == n.gain
    ensures n.source.None? ==> r == n
  {
    n.(source := None)
  }

  /** Starting twice is starting once; stopping twice is stopping once. */
  lemma StartStopIdempotent(n: NoiseNode)
    ensures Start(Start(n)) == Start(n)
    ensures Stop(Stop(n)) == Stop(n)
    ensures Stop(Start(n)) == Stop(n)
  {
  }

  /**
   * `NoiseNode.setVolume`: aim the gain at `value` and, when it is positive and
   * nothing plays, start playing. Silence never stops a playing source.
   */
  function SetNodeVolume(n: NoiseNode, value: real): (r: NoiseNode)
    ensures r.gain == value && r.band == n.band
    ensures n.source.Some? ==> r.source == n.source
    ensures n.source.None? ==> (r.source.Some? <==> value > 0.0)
    ensures r.source.Some? ==> r.source.value.looping || r.source == n.source
  {
    var aimed := n.(gain := value);
    if value > 0.0 && aimed.source.None? then Start(aimed) else aimed
  }

  /** The last volume set for each band, as the mixer displays it. */
  datatype Volumes = Volumes(white: real, pink: real, brown: real) {

    function Get(band: Band): real {
      match band
      case White => white
      case Pink => pink
      case Brown => brown
    }

    function Set(band: Band, v: real): (r: Volumes)
      ensures r.Get(band) == v
      ensures forall b :: b != band ==> r.Get(b) == Get(b)
    {
      match band
      case White => this.(white := v)
      case Pink => this.(pink := v)
      case Brown => this.(brown := v)
    }
  }

  /** `useAudioEngine`'s refs and state; `contexts` counts the audio contexts ever created. */
  datatype Engine = Engine(initialized: bool, contexts: nat, nodes: map<Band, NoiseNode>, volumes: Volumes)

  function Fresh(): Engine {
    Engine(false, 0, map[], Volumes(0.0, 0.0, 0.0))
  }

  /** Before `init` there is no context and no node; after it, one context and one node per band. */
  predicate Valid(e: Engine) {
    && (!e.initialized ==> e.contexts == 0 && e.nodes == map[])
    && (e.initialized ==> e.contexts == 1 && forall b :: b in e.nodes && e.nodes[b].band == b)
  }

  /**
   * `init`: on the first call only, create the context and the white, pink and
   * brown nodes. `audioAvailable` says whether the host has `AudioContext` or
   * `webkitAudioContext`; without either, `new Ctx()` throws before anything
   * is recorded, which is `None`.
   */
  function Init(e: Engine, audioAvailable: bool): (r: Option<Engine>)
    requires Valid(e)
    ensures e.initialized ==> r == Some(e)
    ensures !e.initialized ==> (r.Some? <==> audioAvailable)
    ensures r.Some? ==> Valid(r.value) && r.value.initialized && r.value.contexts == 1 && r.value.volumes == e.volumes
    ensures r.Some? && !e.initialized ==> forall b :: r.value.nodes[b] == NewNode(b)
  {
    if e.initialized then Some(e)
    else if !audioAvailable then None
    else
      var nodes := map[White := NewNode(White), Pink := NewNode(Pink), Brown := NewNode(Brown)];
      assert forall b :: b in nodes && nodes[b] == NewNode(b) by {
        forall b: Band ensures b in nodes && nodes[b] == NewNode(b) {
          if b.White? {
          } else if b.Pink? {
          } else {
            assert b == Brown;
          }
        }
      }
      Some(Engine(true, e.contexts + 1, nodes, e.volumes))
  }

  /**
   * The engine's `setVolume`: initialise if needed, pass the value to the
   * band's node, and record it, unclamped, as that band's volume. When `init`
   * throws, the call ends there and nothing is recorded (`None`).
   */
  function SetVolume(e: Engine, audioAvailable: bool, band: Band, value: real): (r: Option<Engine>)
    requires Valid(e)
    ensures r.Some? <==> e.initialized || audioAvailable
    ensures r.Some? ==> Valid(r.value) && r.value.initialized && r.value.contexts == 1
    ensures r.Some? ==> r.value.volumes.Get(band) == value
    ensures r.Some? ==> forall b :: b != band ==> r.value.volumes.Get(b) == e.volumes.Get(b)
    ensures r.Some? ==> r.value.nodes[band] == SetNodeVolume(Init(e, audioAvailable).value.nodes[band], value)
    ensures r.Some? ==> forall b :: b != band ==> r.value.nodes[b] == Init(e, audioAvailable).value.nodes[b]
  {
    match Init(e, audioAvailable)
    case None => None
    case Some(ready) =>
      Some(ready.(nodes := ready.nodes[band := SetNodeVolume(ready.nodes[band], value)],
                  volumes := ready.volumes.Set(band, value)))
  }

  /**
   * The engine after the calls `calls` to `setVolume`, in order. A call whose
   * `init` throws leaves the engine as it was, and the next call tries again.
   */
  function Apply(e: Engine, audioAvailable: bool, calls: seq<(Band, real)>): (r: Engine)
    requires Valid(e)
    ensures Valid(r)
    decreases |calls|
  {
    if |calls| == 0 then e
    else Apply(SetVolume(e, audioAvailable, calls[0].0, calls[0].1).GetOr(e), audioAvailable, calls[1..])
  }

  /** Without an audio context constructor every call throws: the engine never initialises and no volume is recorded. */
  lemma {:induction false} NoAudioNoEffect(e: Engine, calls: seq<(Band, real)>)
    requires Valid(e) && !e.initialized
    ensures Apply(e, false, calls) == e
    decreases |calls|
  {
    if |calls| > 0 {
      assert SetVolume(e, false, calls[0].0, calls[0].1).None?;
      NoAudioNoEffect(e, calls[1..]);
    }
  }

  predicate LoudCall(calls: seq<(Band, real)>, b: Band) {
    exists j :: 0 <= j < |calls| && calls[j].0 == b && calls[j].1 > 0.0
  }

  /**
   * From a fresh engine, at most one context is ever created, and a band is
   * playing exactly when some call gave it a positive volume: a zero volume
   * never stops it.
   */
  lemma {:induction false} PlayingIffEverLoud(e: Engine, calls: seq<(Band, real)>)
    requires Valid(e)
    requires e.initialized ==> forall b :: e.nodes[b].source.None?
    ensures Apply(e, true, calls).contexts <= 1
    ensures |calls| > 0 ==> Apply(e, true, calls).initialized
    ensures Apply(e, true, calls).initialized ==>
      forall b :: Apply(e, true, calls).nodes[b].source.Some? <==> LoudCall(calls, b)
    decreases |calls|
  {
    if |calls| > 0 {
      var e1 := SetVolume(e, true, calls[0].0, calls[0].1).value;
      var rest := calls[1..];
      PlayingAfterPrefix(e1, rest);
      forall b
        ensures Apply(e, true, calls).nodes[b].source.Some? <==> LoudCall(calls, b)
      {
        assert LoudCall(calls, b) <==> (calls[0].0 == b && calls[0].1 > 0.0) || LoudCall(rest, b) by {
          if LoudCall(rest, b) {
            var j :| 0 <= j < |rest| && rest[j].0 == b && rest[j].1 > 0.0;
            assert calls[j + 1] == rest[j];
          }
        }
      }
    }
  }

  /** From an initialised engine, a band plays after further calls iff it played before or one of them was loud for it. */
  lemma {:induction false} PlayingAfterPrefix(e: Engine, calls: seq<(Band, real)>)
    requires Valid(e) && e.initialized
    ensures Apply(e, true, calls).contexts == 1 && Apply(e, true, calls).initialized
    ensures forall b :: Apply(e, true, calls).nodes[b].source.Some? <==> e.nodes[b].source.Some? || LoudCall(calls, b)
    decreases |calls|
  {
    if |calls| > 0 {
      var e1 := SetVolume(e, true, calls[0].0, calls[0].1).value;
      var rest := calls[1..];
      PlayingAfterPrefix(e1, rest);
      forall b
        ensures Apply(e, true, calls).nodes[b].source.Some? <==> e.nodes[b].source.Some? || LoudCall(calls, b)
      {
        assert LoudCall(calls, b) <==> (calls[0].0 == b && calls[0].1 > 0.0) || LoudCall(rest, b) by {
          if LoudCall(rest, b) {
            var j :| 0 <= j < |rest| && rest[j].0 == b && rest[j].1 > 0.0;
            assert calls[j + 1] == rest[j];
          }
        }
      }
    }
  }

  /** Turning pink up and back to zero shows zero, yet pink keeps playing; the other bands stay silent. */
  lemma PinkUpThenSilentKeepsPlaying()
    ensures var e := SetVolume(SetVolume(Fresh(), true, Pink, 0.3).value, true, Pink, 0.0).value;
      && e.volumes == Volumes(0.0, 0.0, 0.0)
      && e.nodes[Pink].source == Some(Source(true))
      && e.nodes[White].source.None? && e.nodes[Brown].source.None?
  {
  }

  /** Out-of-range volumes are kept as given. */
  lemma VolumesNotClamped()
    ensures SetVolume(Fresh(), true, White, -0.5).value.volumes.white == -0.5
    ensures SetVolume(Fresh(), true, Brown, 1.7).value.volumes.brown == 1.7
    ensures SetVolume(Fresh(), true, Brown, 1.7).value.nodes[Brown].gain == 1.7
  {
  }
}

=== FILE: gallery.dfy ===
/**
 * Index navigation in `StyleGallery`: the wrap-around `next`/`prev`, the
 * button guards that disable them at the ends, the dot buttons, and the
 * favorite record the heart button saves. The gallery's caller always passes
 * `[fashion, ...styleVariations]`, so there is at least one variation.
 */
module StyleGallery {
  import opened Optional
  import opened Recommendations
  import History

  /** `next`: `(i + 1) % n`. */
  function Next(i: nat, n: nat): (r: nat)
    requires n > 0
    ensures r < n
    ensures i < n - 1 ==> r == i + 1
    ensures i == n - 1 ==> r == 0
  {
    (i + 1) % n
  }

  /** `prev`: `(i - 1 + n) % n`; the operand is never negative for an index `i`. */
  function Prev(i: nat, n: nat): (r: nat)
    requires n > 0
    ensures r < n
    ensures 0 < i <= n ==> r == i - 1
    ensures i == 0 ==> r == n - 1
  {
    (i - 1 + n) % n
  }

  /** `next` and `prev` undo each other on every index in range. */
  lemma NextPrevInverse(i: nat, n: nat)
    requires i < n
    ensures Prev(Next(i, n), n) == i
    ensures Next(Prev(i, n), n) == i
  {
  }

  datatype Click = PrevButton | NextButton | Dot(k: nat)

  /**
   * One click. The previous button is disabled at index 0 and the next button
   * at the last index, so a disabled click changes nothing; a dot sets the index
   * to its own position.
   */
  function Step(i: nat, n: nat, c: Click): (r: nat)
    requires n > 0
    requires c.Dot? ==> c.k < n
    ensures c == PrevButton && i > 0 && i < n ==> r == i - 1
    ensures c == PrevButton && i == 0 ==> r == i
    ensures c == NextButton && i < n - 1 ==> r == i + 1
    ensures c == NextButton && i == n - 1 ==> r == i
    ensures c.Dot? ==> r == c.k
  {
    match c
    case PrevButton => if i == 0 then i else Prev(i, n)
    case NextButton => if i == n - 1 then i else Next(i, n)
    case Dot(k) => k
  }

  predicate ValidClicks(n: nat, cs: seq<Click>) {
    forall j :: 0 <= j < |cs| ==> (cs[j].Dot? ==> cs[j].k < n)
  }

  function Run(i: nat, n: nat, cs: seq<Click>): nat
    requires n > 0 && ValidClicks(n, cs)
    decreases |cs|
  {
    if |cs| == 0 then i else Run(Step(i, n, cs[0]), n, cs[1..])
  }

  /**
   * With the guards in place the index never wraps: starting in range, every
   * sequence of clicks keeps it in range and moves it by at most one per
   * arrow click.
   */
  lemma {:induction false} ClicksStayInRange(i: nat, n: nat, cs: seq<Click>)
    requires n > 0 && i < n && ValidClicks(n, cs)
    ensures Run(i, n, cs) < n
    ensures (forall j :: 0 <= j < |cs| ==> cs[j] == NextButton) ==> Run(i, n, cs) == History.Min(i + |cs|, n - 1)
    decreases |cs|
  {
    if |cs| > 0 {
      assert ValidClicks(n, cs[1..]);
      ClicksStayInRange(Step(i, n, cs[0]), n, cs[1..]);
    }
  }

  /** The record the heart button saves: a fixed placeholder exercise with the style on screen. */
  function FavoriteRecord(style: FashionStyle): (r: Recommendation)
    ensures r.fashion == style && r.styleVariations.None?
    ensures r.exercise.title == "Favorite Style" && r.exercise.duration == "N/A"
    ensures r.exercise.intensity == Low
  {
    Recommendation(Exercise("Favorite Style", "Saved favorite style variation", "N/A", Low), style, None)
  }

  /** `handleSaveFavorite`: the style at the current index goes first into favorites. */
  function SaveFavorite(hasWindow: bool, storage: History.Storage, freshId: string, timestamp: int,
                        variations: seq<FashionStyle>, i: nat): (r: History.Saved)
    requires i < |variations|
    ensures hasWindow ==> var f := History.GetFavorites(true, r.storage);
      |f| >= 1 && f[0].recommendation.fashion == variations[i] && f[0].id == freshId
      && f[0].recommendation.exercise.title == "Favorite Style"
    ensures !hasWindow ==> r.storage == storage
  {
    History.SaveToFavorites(hasWindow, storage, freshId, timestamp, FavoriteRecord(variations[i]))
  }
}

=== FILE: history.dfy ===
/**
 * History and favorites over local storage. The clock (`Date.now()`) and
 * `crypto.randomUUID()` are the parameters `timestamp` and `freshId`;
 * `typeof window === "undefined"` is `hasWindow == false`; local storage maps a
 * key to the parsed list, or to `None` when the stored text does not parse.
 */
module History {
  import opened Optional
  import opened Recommendations
  import Seqs

  const HistoryKey := "lumina_history_v1"
  const FavoritesKey := "lumina_favorites_v1"
  const HistoryLimit := 50

  datatype HistoryItem = HistoryItem(id: string, timestamp: int, recommendation: Recommendation)

  type Storage = map<string, Option<seq<HistoryItem>>>

  /** What a save or remove returns (`undefined` is `None`) and the storage afterwards. */
  datatype Saved = Saved(returned: Option<seq<HistoryItem>>, storage: Storage)

  /** The shared body of `getHistory` and `getFavorites`: the parsed list, or `[]`. */
  function Read(hasWindow: bool, storage: Storage, key: string): (r: seq<HistoryItem>)
    ensures !hasWindow || key !in storage || storage[key].None? ==> r == []
    ensures hasWindow && key in storage && storage[key].Some? ==> r == storage[key].value
  {
    if hasWindow && key in storage && storage[key].Some? then storage[key].value else []
  }

  function GetHistory(hasWindow: bool, storage: Storage): seq<HistoryItem> {
    Read(hasWindow, storage, HistoryKey)
  }

  function GetFavorites(hasWindow: bool, storage: Storage): seq<HistoryItem> {
    Read(hasWindow, storage, FavoritesKey)
  }

  /** Writing a list under a key stores it so that reading the key gives it back. */
  function Write(storage: Storage, key: string, items: seq<HistoryItem>): (r: Storage)
    ensures Read(true, r, key) == items
    ensures forall k :: k in storage && k != key ==> k in r && r[k] == storage[k]
    ensures r.Keys == storage.Keys + {key}
  {
    storage[key := Some(items)]
  }

  /** `saveToHistory`: the new item first, then the old history, cut to 50 entries. */
  function SaveToHistory(hasWindow: bool, storage: Storage, freshId: string, timestamp: int,
                         recommendation: Recommendation): (r: Saved)
    ensures !hasWindow ==> r == Saved(None, storage)
    ensures hasWindow ==>
      var prior := GetHistory(hasWindow, storage);
      && r.returned.Some?
      && var h := r.returned.value;
      && 1 <= |h| <= HistoryLimit
      && |h| == Min(|prior| + 1, HistoryLimit)
      && h[0] == HistoryItem(freshId, timestamp, recommendation)
      && h[1..] == prior[..|h| - 1]
      && r.storage == Write(storage, HistoryKey, h)
      && GetHistory(hasWindow, r.storage) == h
  {
    if !hasWindow then Saved(None, storage)
    else
      var updated := Pushed(GetHistory(hasWindow, storage), HistoryItem(freshId, timestamp, recommendation));
      Saved(Some(updated), Write(storage, HistoryKey, updated))
  }

  /** The history list after one save of `item` onto `h`: the item first, cut to 50 entries. */
  function Pushed(h: seq<HistoryItem>, item: HistoryItem): (r: seq<HistoryItem>)
    ensures |r| == Min(|h| + 1, HistoryLimit) && r[0] == item
    ensures forall j :: 1 <= j < |r| ==> r[j] == h[j - 1]
  {
    var all := [item] + h;
    if |all| <= HistoryLimit then all else all[..HistoryLimit]
  }

  /** The history list after each item of `saves` is pushed in turn. */
  function PushAll(h: seq<HistoryItem>, saves: seq<HistoryItem>): seq<HistoryItem>
    decreases |saves|
  {
    if |saves| == 0 then h else Pushed(PushAll(h, saves[..|saves| - 1]), saves[|saves| - 1])
  }

  /** Saving through storage leaves exactly the pushed list in storage. */
  lemma {:induction false} SaveManyPushes(storage: Storage, saves: seq<HistoryItem>)
    ensures GetHistory(true, SaveMany(storage, saves)) == PushAll(GetHistory(true, storage), saves)
    decreases |saves|
  {
    if |saves| > 0 {
      SaveManyPushes(storage, saves[..|saves| - 1]);
    }
  }

  /** Pushing a non-empty run gives the run, newest first, then the earlier list, cut to 50. */
  lemma {:induction false} PushAllOrder(prior: seq<HistoryItem>, saves: seq<HistoryItem>)
    ensures |saves| > 0 ==> |PushAll(prior, saves)| == Min(|prior| + |saves|, HistoryLimit)
    ensures var h := PushAll(prior, saves);
      forall j :: 0 <= j < |h| && j < |saves| ==> h[j] == saves[|saves| - 1 - j]
    ensures var h := PushAll(prior, saves);
      forall j :: |saves| <= j < |h| ==> h[j] == prior[j - |saves|]
    decreases |saves|
  {
    if |saves| > 0 {
      var n := |saves| - 1;
      var front := saves[..n];
      PushAllOrder(prior, front);
      var h0 := PushAll(prior, front);
      var h := PushAll(prior, saves);
      assert h == Pushed(h0, saves[n]);
      forall j | 0 <= j < |h| && j < |saves|
        ensures h[j] == saves[|saves| - 1 - j]
      {
        if j > 0 {
          assert h[j] == h0[j - 1] == front[n - 1 - (j - 1)];
        }
      }
      forall j | |saves| <= j < |h|
        ensures h[j] == prior[j - |saves|]
      {
        assert h[j] == h0[j - 1];
      }
    }
  }

  /**
   * After any non-empty run of saves the stored history is the saves, newest
   * first, followed by the earlier history, cut to 50 entries.
   */
  lemma {:induction false} RepeatedSavesStayBounded(storage: Storage, saves: seq<HistoryItem>)
    ensures |saves| > 0 ==>
      |GetHistory(true, SaveMany(storage, saves))| == Min(|GetHistory(true, storage)| + |saves|, HistoryLimit)
    ensures var h := GetHistory(true, SaveMany(storage, saves));
      forall j :: 0 <= j < |h| && j < |saves| ==> h[j] == saves[|saves| - 1 - j]
    ensures var h := GetHistory(true, SaveMany(storage, saves));
      forall j :: |saves| <= j < |h| ==> h[j] == GetHistory(true, storage)[j - |saves|]
  {
    SaveManyPushes(storage, saves);
    PushAllOrder(GetHistory(true, storage), saves);
  }

  /** The smaller of two integers. */
  function Min(a: int, b: int): int {
    if a <= b then a else b
  }

  /** Saving each item of `saves` in turn, oldest first, with its id, timestamp and recommendation. */
  function SaveMany(storage: Storage, saves: seq<HistoryItem>): Storage
    decreases |saves|
  {
    if |saves| == 0 then storage
    else
      var last := saves[|saves| - 1];
      SaveToHistory(true, SaveMany(storage, saves[..|saves| - 1]), last.id, last.timestamp, last.recommendation).storage
  }

  /** The filter shared by `saveToFavorites` and `removeFromFavorites`. */
  function WithoutId(items: seq<HistoryItem>, id: string): (r: seq<HistoryItem>)
    ensures forall i :: 0 <= i < |r| ==> r[i].id != id && r[i] in items
    ensures forall i :: 0 <= i < |items| && items[i].id != id ==> items[i] in r
  {
    Seqs.Filter(items, (f: HistoryItem) => f.id != id)
  }

  /** `saveToFavorites`: the new item first, followed by the old favorites that do not share its id. */
  function SaveToFavorites(hasWindow: bool, storage: Storage, freshId: string, timestamp: int,
                           recommendation: Recommendation): (r: Saved)
    ensures !hasWindow ==> r == Saved(None, storage)
    ensures hasWindow ==>
      var prior := GetFavorites(hasWindow, storage);
      && r.returned.Some?
      && var f := r.returned.value;
      && |f| >= 1
      && f[0] == HistoryItem(freshId, timestamp, recommendation)
      && f[1..] == WithoutId(prior, freshId)
      && r.storage == Write(storage, FavoritesKey, f)
      && GetFavorites(hasWindow, r.storage) == f
  {
    if !hasWindow then Saved(None, storage)
    else
      var item := HistoryItem(freshId, timestamp, recommendation);
      var updated := [item] + WithoutId(GetFavorites(hasWindow, storage), freshId);
      Saved(Some(updated), Write(storage, FavoritesKey, updated))
  }

  /** With an id no favorite has yet, saving keeps every earlier favorite, in order, behind the new one. */
  lemma FreshFavoriteKeepsAll(storage: Storage, freshId: string, timestamp: int, recommendation: Recommendation)
    requires forall i :: 0 <= i < |GetFavorites(true, storage)| ==> GetFavorites(true, storage)[i].id != freshId
    ensures SaveToFavorites(true, storage, freshId, timestamp, recommendation).returned.value
            == [HistoryItem(freshId, timestamp, recommendation)] + GetFavorites(true, storage)
  {
    Seqs.FilterKeepsAll(GetFavorites(true, storage), (f: HistoryItem) => f.id != freshId);
  }

  /** `removeFromFavorites`: drop every favorite with that id. */
  function RemoveFromFavorites(hasWindow: bool, storage: Storage, id: string): (r: Saved)
    ensures !hasWindow ==> r == Saved(None, storage)
    ensures hasWindow ==>
      && r.returned == Some(WithoutId(GetFavorites(hasWindow, storage), id))
      && r.storage == Write(storage, FavoritesKey, r.returned.value)
  {
    if !hasWindow then Saved(None, storage)
    else
      var updated := WithoutId(GetFavorites(hasWindow, storage), id);
      Saved(Some(updated), Write(storage, FavoritesKey, updated))
  }

  /** Removing keeps the other favorites in order, and removing the same id again changes nothing. */
  lemma RemoveFavoriteIdempotent(storage: Storage, id: string, a: seq<HistoryItem>, b: seq<HistoryItem>)
    ensures var s1 := RemoveFromFavorites(true, storage, id).storage;
      RemoveFromFavorites(true, s1, id).storage == s1
    ensures WithoutId(a + b, id) == WithoutId(a, id) + WithoutId(b, id)
    ensures (forall i :: 0 <= i < |a| ==> a[i].id != id) ==> WithoutId(a, id) == a
  {
    var p := (f: HistoryItem) => f.id != id;
    var s1 := RemoveFromFavorites(true, storage, id).storage;
    Seqs.FilterIdempotent(GetFavorites(true, storage), p);
    assert GetFavorites(true, s1) == WithoutId(GetFavorites(true, storage), id);
    Seqs.FilterConcat(a, b, p);
    if forall i :: 0 <= i < |a| ==> a[i].id != id {
      Seqs.FilterKeepsAll(a, p);
    }
  }
}

=== FILE: identity.dfy ===
/**
 * `IdentityProvider`: the user's identity, the theme mode derived from it, and
 * its persistence under `lumina_identity`. The stored value is read back
 * without checking, so an identity is a string here; the eight values the
 * type admits are `Identities`. `document.body`'s `data-theme` attribute is
 * the field `bodyTheme`.
 */
module Identity {
  import opened Optional

  const IdentityKey := "lumina_identity"

  const Identities: seq<string> := ["Male", "Female", "Non-Binary", "Gay", "Lesbian", "Queer", "Trans", "Pansexual"]

  const PrideIdentities: seq<string> := ["Non-Binary", "Gay", "Lesbian", "Queer", "Trans", "Pansexual"]

  datatype ThemeMode = Default | Pride | Pink | Blue

  datatype IdentityState = IdentityState(
    identity: string,
    themeMode: ThemeMode,
    bodyTheme: Option<ThemeMode>,
    storage: map<string, string>)

  /** `updateTheme`'s classification of an identity into a theme mode. */
  function ThemeFor(id: string): (m: ThemeMode)
    ensures m == Pink <==> id == "Female"
    ensures m == Blue <==> id == "Male"
    ensures m == Pride <==> id in PrideIdentities
    ensures m == Default <==> id !in Identities
  {
    if id == "Female" then Pink
    else if id == "Male" then Blue
    else if id in PrideIdentities then Pride
    else Default
  }

  /** Every identity the type admits gets a theme of its own; only unchecked stored text gets the default. */
  lemma EveryIdentityThemed(id: string)
    requires id in Identities
    ensures ThemeFor(id) != Default
  {
  }

  /** `updateTheme`: set the theme mode and the body attribute. */
  function UpdateTheme(s: IdentityState, id: string): (r: IdentityState)
    ensures r.themeMode == ThemeFor(id) && r.bodyTheme == Some(ThemeFor(id))
    ensures r.identity == s.identity && r.storage == s.storage
  {
    var mode := ThemeFor(id);
    s.(themeMode := mode, bodyTheme := Some(mode))
  }

  /** The state before the restore effect runs. */
  function Mounted(storage: map<string, string>): IdentityState {
    IdentityState("Male", Default, None, storage)
  }

  /** The restore effect: adopt a non-empty stored identity, unchecked, and theme for it. */
  function Restore(s: IdentityState): (r: IdentityState)
    ensures IdentityKey in s.storage && s.storage[IdentityKey] != "" ==>
      && r.identity == s.storage[IdentityKey]
      && r.themeMode == ThemeFor(r.identity)
      && r.bodyTheme == Some(ThemeFor(r.identity))
    ensures IdentityKey !in s.storage || s.storage[IdentityKey] == "" ==> r == s
    ensures r.storage == s.storage
  {
    if IdentityKey in s.storage && s.storage[IdentityKey] != "" then
      var saved := s.storage[IdentityKey];
      UpdateTheme(s.(identity := saved), saved)
    else s
  }

  /** `setIdentity`: set the identity, store it, and theme for it. */
  function SetIdentity(s: IdentityState, id: string): (r: IdentityState)
    ensures r.identity == id && r.themeMode == ThemeFor(id) && r.bodyTheme == Some(ThemeFor(id))
    ensures IdentityKey in r.storage && r.storage[IdentityKey] == id
    ensures forall k :: k in s.storage && k != IdentityKey ==> k in r.storage && r.storage[k] == s.storage[k]
  {
    UpdateTheme(s.(identity := id, storage := s.storage[IdentityKey := id]), id)
  }

  /** A choice survives a reload: restoring after `setIdentity` gives back the same identity and theme. */
  lemma SetIdentitySurvivesReload(s: IdentityState, id: string)
    requires id != ""
    ensures var r := Restore(Mounted(SetIdentity(s, id).storage));
      && r.identity == id
      && r.themeMode == SetIdentity(s, id).themeMode
      && r.bodyTheme == SetIdentity(s, id).bodyTheme
  {
  }

  /**
   * With nothing stored the provider keeps its initial `Male` identity with the
   * `default` theme, which is not the `blue` theme `Male` is otherwise given.
   */
  lemma NothingStoredKeepsDefault(storage: map<string, string>)
    requires IdentityKey !in storage || storage[IdentityKey] == ""
    ensures Restore(Mounted(storage)).identity == "Male"
    ensures Restore(Mounted(storage)).themeMode == Default
    ensures ThemeFor("Male") == Blue
  {
  }

  /** A stored value outside the eight identities is adopted as it is, with the default theme. */
  lemma UncheckedRestore(storage: map<string, string>)
    requires IdentityKey in storage && storage[IdentityKey] != "" && storage[IdentityKey] !in Identities
    ensures Restore(Mounted(storage)).identity == storage[IdentityKey]
    ensures Restore(Mounted(storage)).themeMode == Default
  {
  }
}

=== FILE: option.dfy ===
/** An optional value: stands for `null` / `undefined` in the modelled TypeScript. */
module Optional {

  datatype Option<+T> = None | Some(value: T) {

    /** The wrapped value, or `default` when absent (`x ?? default`). */
    function GetOr(default: T): T {
      if Some? then value else default
    }
  }
}

=== FILE: recommendation.dfy ===
/** The recommendation records exchanged between the suggestion endpoint, the gallery and history. */
module Recommendations {
  import opened Optional

  datatype Intensity = High | Medium | Low

  datatype Exercise = Exercise(title: string, description: string, duration: string, intensity: Intensity)

  datatype FashionStyle = FashionStyle(
    styleName: string,
    items: seq<string>,
    colorPalette: seq<string>,
    imageUrl: string,
    altText: string)

  datatype Recommendation = Recommendation(
    exercise: Exercise,
    fashion: FashionStyle,
    styleVariations: Option<seq<FashionStyle>>)
}

=== FILE: seqs.dfy ===
/** Sequence operations the modelled code takes from `Array.prototype`: `filter` and `find`. */
module Seqs {
  import opened Optional

  /** `s.filter(p)`: the elements satisfying `p`, in their original order. */
  function Filter<T>(s: seq<T>, p: T -> bool): (r: seq<T>)
    ensures |r| <= |s|
    ensures forall i :: 0 <= i < |r| ==> r[i] in s && p(r[i])
    ensures forall i :: 0 <= i < |s| && p(s[i]) ==> s[i] in r
  {
    if |s| == 0 then []
    else if p(s[0]) then [s[0]] + Filter(s[1..], p)
    else Filter(s[1..], p)
  }

  /** Filtering distributes over concatenation, so relative order is kept. */
  lemma {:induction false} FilterConcat<T>(a: seq<T>, b: seq<T>, p: T -> bool)
    ensures Filter(a + b, p) == Filter(a, p) + Filter(b, p)
  {
    if |a| == 0 {
      assert a + b == b;
    } else {
      assert (a + b)[0] == a[0];
      assert (a + b)[1..] == a[1..] + b;
      FilterConcat(a[1..], b, p);
    }
  }

  /** A rejected element leaves no trace in the filter, wherever it sits. */
  lemma FilterSkipsRejected<T>(a: seq<T>, x: T, c: seq<T>, p: T -> bool)
    requires !p(x)
    ensures Filter(a + [x] + c, p) == Filter(a + c, p)
  {
    FilterConcat(a + [x], c, p);
    FilterConcat(a, [x], p);
    FilterConcat(a, c, p);
    assert Filter([x], p) == [] by {
      assert [x][1..] == [];
    }
  }

  /** A filter that rejects nothing returns its input unchanged. */
  lemma {:induction false} FilterKeepsAll<T>(s: seq<T>, p: T -> bool)
    requires forall i :: 0 <= i < |s| ==> p(s[i])
    ensures Filter(s, p) == s
  {
    if |s| > 0 {
      assert p(s[0]);
      FilterKeepsAll(s[1..], p);
    }
  }

  /** Filtering twice by the same predicate is filtering once. */
  lemma FilterIdempotent<T>(s: seq<T>, p: T -> bool)
    ensures Filter(Filter(s, p), p) == Filter(s, p)
  {
  }

  /** The indices of `s` whose element satisfies `p`. */
  function Hits<T>(s: seq<T>, p: T -> bool): set<nat> {
    set i: nat | i < |s| && p(s[i])
  }

  /** The length of a filter is the number of positions that satisfy the predicate. */
  lemma {:induction false} FilterLengthCountsHits<T>(s: seq<T>, p: T -> bool)
    ensures |Filter(s, p)| == |Hits(s, p)|
  {
    if |s| == 0 {
      assert Hits(s, p) == {};
    } else {
      var n := |s| - 1;
      var init := s[..n];
      assert s == init + [s[n]];
      FilterConcat(init, [s[n]], p);
      FilterLengthCountsHits(init, p);
      if p(s[n]) {
        assert Hits(s, p) == Hits(init, p) + {n};
        assert n !in Hits(init, p);
      } else {
        assert Hits(s, p) == Hits(init, p);
      }
    }
  }

  /** The index of the first element satisfying `p` at or after `from`. */
  function FindFrom<T>(s: seq<T>, p: T -> bool, from: nat): (r: Option<nat>)
    requires from <= |s|
    ensures r.Some? ==> from <= r.value < |s| && p(s[r.value])
                        && forall j :: from <= j < r.value ==> !p(s[j])
    ensures r.None? ==> forall j :: from <= j < |s| ==> !p(s[j])
    decreases |s| - from
  {
    if from == |s| then None
    else if p(s[from]) then Some(from)
    else FindFrom(s, p, from + 1)
  }

  /** `s.findIndex(p)` as an option: the first index satisfying `p`. */
  function FindFirst<T>(s: seq<T>, p: T -> bool): (r: Option<nat>)
    ensures r.Some? ==> r.value < |s| && p(s[r.value]) && forall j :: 0 <= j < r.value ==> !p(s[j])
    ensures r.None? ==> forall j :: 0 <= j < |s| ==> !p(s[j])
  {
    FindFrom(s, p, 0)
  }

  /** `s.find(p) || s[0]`: the index of the first match, falling back to entry 0. */
  function FirstOrHead<T>(s: seq<T>, p: T -> bool): (i: nat)
    requires |s| > 0
    ensures i < |s|
    ensures (exists j :: 0 <= j < |s| && p(s[j])) ==> p(s[i]) && forall j :: 0 <= j < i ==> !p(s[j])
    ensures (forall j :: 0 <= j < |s| ==> !p(s[j])) ==> i == 0
  {
    match FindFirst(s, p)
    case Some(k) => k
    case None => 0
  }
}

=== FILE: strings.dfy ===
/**
 * The string primitives the modelled code relies on: `String.prototype.trim`,
 * `Number.prototype.toString` for integers, and `padStart(2, '0')`.
 */
module Strings {

  /** The code points ECMAScript classes as WhiteSpace or LineTerminator: what `trim` strips. */
  predicate IsJsSpace(c: char) {
    || c == '\t' || c == '\n' || c == '\U{B}' || c == '\U{C}' || c == '\r' || c == ' '
    || c == '\U{A0}' || c == '\U{1680}' || ('\U{2000}' <= c <= '\U{200A}')
    || c == '\U{2028}' || c == '\U{2029}' || c == '\U{202F}' || c == '\U{205F}'
    || c == '\U{3000}' || c == '\U{FEFF}'
  }

  predicate AllSpace(s: string) {
    forall i :: 0 <= i < |s| ==> IsJsSpace(s[i])
  }

  /** Drops leading white space. */
  function TrimStart(s: string): (r: string)
    ensures |r| <= |s| && r == s[|s| - |r|..]
    ensures AllSpace(s[..|s| - |r|])
    ensures |r| > 0 ==> !IsJsSpace(r[0])
  {
    if |s| > 0 && IsJsSpace(s[0]) then TrimStart(s[1..]) else s
  }

  /** Drops trailing white space. */
  function TrimEnd(s: string): (r: string)
    ensures |r| <= |s| && r == s[..|r|]
    ensures AllSpace(s[|r|..])
    ensures |r| > 0 ==> !IsJsSpace(r[|r| - 1])
  {
    if |s| > 0 && IsJsSpace(s[|s| - 1]) then TrimEnd(s[..|s| - 1]) else s
  }

  /** `r` is `s` with white-space runs removed from both ends, and nothing else removed. */
  ghost predicate IsTrimOf(r: string, s: string) {
    && (|r| > 0 ==> !IsJsSpace(r[0]) && !IsJsSpace(r[|r| - 1]))
    && exists a :: 0 <= a <= |s| - |r| && r <= s[a..] && AllSpace(s[..a]) && AllSpace(s[a + |r|..])
  }

  /** `s.trim()`. */
  function Trim(s: string): (r: string)
    ensures IsTrimOf(r, s)
    ensures r == [] <==> AllSpace(s)
  {
    var t := TrimStart(s);
    var r := TrimEnd(t);
    var a := |s| - |t|;
    assert r <= s[a..] && s[a + |r|..] == t[|r|..];
    assert |r| > 0 ==> r[0] == t[0];
    assert r == [] ==> s == s[..a] + t[|r|..];
    r
  }

  // ---- decimal rendering ----

  predicate IsDigit(c: char) {
    '0' <= c <= '9'
  }

  predicate AllDigits(s: string) {
    forall i :: 0 <= i < |s| ==> IsDigit(s[i])
  }

  function DigitChar(d: nat): (c: char)
    requires d < 10
    ensures IsDigit(c)
  {
    ('0' as int + d) as char
  }

  function DigitValue(c: char): (d: nat)
    requires IsDigit(c)
    ensures d < 10 && DigitChar(d) == c
  {
    c as int - '0' as int
  }

  /** The number a string of decimal digits denotes; the inverse of `Decimal`. */
  function DigitsValue(s: string): nat
    requires AllDigits(s)
  {
    if |s| == 0 then 0 else 10 * DigitsValue(s[..|s| - 1]) + DigitValue(s[|s| - 1])
  }

  /** `n.toString()` for a non-negative integer: shortest decimal form, no leading zero. */
  function Decimal(n: nat): (r: string)
    ensures |r| >= 1 && AllDigits(r)
    ensures |r| > 1 ==> r[0] != '0'
  {
    if n < 10 then [DigitChar(n)] else Decimal(n / 10) + [DigitChar(n % 10)]
  }

  /** Rendering and reading back decimal digits is the identity. */
  lemma {:induction false} DecimalRoundTrip(n: nat)
    ensures DigitsValue(Decimal(n)) == n
  {
    var r := Decimal(n);
    if n >= 10 {
      assert r[..|r| - 1] == Decimal(n / 10);
      DecimalRoundTrip(n / 10);
    }
  }

  /** Numbers below 10 take one digit, numbers from 10 to 99 take two, and larger ones more. */
  lemma DecimalLength(n: nat)
    ensures n < 10 ==> |Decimal(n)| == 1
    ensures 10 <= n < 100 ==> |Decimal(n)| == 2
    ensures n >= 10 ==> |Decimal(n)| >= 2
  {
  }

  /** `i.toString()` for any integer. */
  function IntToString(i: int): (r: string)
    ensures i >= 0 ==> r == Decimal(i)
    ensures i < 0 ==> |r| >= 2 && r[0] == '-' && r[1..] == Decimal(-i)
  {
    if i < 0 then "-" + Decimal(-i) else Decimal(i)
  }

  /** `s.padStart(2, '0')`: left-fills with zeros up to two characters. */
  function PadTwo(s: string): (r: string)
    ensures |s| >= 2 ==> r == s
    ensures |s| < 2 ==> |r| == 2 && r[2 - |s|..] == s && AllDigits(r[..2 - |s|])
  {
    if |s| >= 2 then s else seq(2 - |s|, _ => '0') + s
  }

  /**
   * A number rendered and zero-padded is at least two digits that read back as
   * it; below 100 it is exactly two.
   */
  lemma PaddedDigits(n: nat)
    ensures |PadTwo(Decimal(n))| >= 2 && AllDigits(PadTwo(Decimal(n)))
    ensures n < 100 ==> |PadTwo(Decimal(n))| == 2
    ensures DigitsValue(PadTwo(Decimal(n))) == n
  {
    var r := PadTwo(Decimal(n));
    DecimalLength(n);
    DecimalRoundTrip(n);
    if n < 10 {
      assert r == ['0', DigitChar(n)];
      assert r[..1] == ['0'];
      assert DigitsValue(r[..1]) == 0 by {
        assert r[..1][..0] == [];
      }
    }
  }
}

=== FILE: styleguide.dfy ===
/**
 * `StyleGuide`: the table of looks, filtering by the current identity, and the
 * random pick. The value of `Math.random()` is the parameter `u`.
 */
module StyleGuide {
  import opened Optional
  import Seqs
  import Identity

  datatype FashionItem = FashionItem(name: string, image: Option<string>)

  datatype Look = Look(title: string, palette: seq<string>, items: seq<FashionItem>,
                       tags: seq<string>, image: Option<string>)

  const Looks: seq<Look> := [
    Look("Monochrome Stealth", ["#000000", "#1A1A1A", "#333333"],
      [FashionItem("Oversized Tee", Some("/item_oversized_tee.png")),
       FashionItem("Cargo Tech Pants", Some("/item_tech_pants.png")),
       FashionItem("Combat Boots", Some("/item_combat_boots.png"))],
      ["Male", "Non-Binary", "Queer", "Trans", "Pansexual"],
      Some("/fashion_masc_stealth.png")),
    Look("Neon Cyber", ["#DFFF00", "#050505", "#FFFFFF"],
      [FashionItem("Neon Hoodie", None), FashionItem("Compression Tights", None),
       FashionItem("Speed Runners", None)],
      ["Female", "Non-Binary", "Queer", "Lesbian", "Trans", "Pansexual"],
      Some("/fashion_fem_neon.png")),
    Look("Earth Core", ["#4A4A4A", "#5C5C5C", "#8B4513"],
      [FashionItem("Vintage Wash Tee", None), FashionItem("Relaxed Chino", None),
       FashionItem("Retro Sneakers", None)],
      ["Male", "Female", "Gay", "Lesbian", "Trans", "Pansexual"],
      None),
    Look("Future Minimal", ["#FFFFFF", "#E0E0E0", "#000000"],
      [FashionItem("Structured Jacket", None), FashionItem("Tailored Shorts", None),
       FashionItem("High Tops", None)],
      ["Male", "Female", "Non-Binary", "Queer", "Gay", "Trans", "Pansexual"],
      None)
  ]

  /** `getFilteredLooks` over a table: the looks tagged with the identity, in table order. */
  function FilteredLooks(looks: seq<Look>, identity: string): (r: seq<Look>)
    ensures |r| <= |looks|
    ensures forall i :: 0 <= i < |r| ==> identity in r[i].tags && r[i] in looks
    ensures forall i :: 0 <= i < |looks| && identity in looks[i].tags ==> looks[i] in r
  {
    Seqs.Filter(looks, (l: Look) => identity in l.tags)
  }

  /**
   * Filtering keeps table order and multiplicity: it works piecewise, a single
   * look is kept exactly when tagged, and a table whose every look is tagged
   * comes back unchanged.
   */
  lemma FilteredLooksKeepOrder(a: seq<Look>, b: seq<Look>, l: Look, identity: string)
    ensures FilteredLooks(a + b, identity) == FilteredLooks(a, identity) + FilteredLooks(b, identity)
    ensures FilteredLooks([l], identity) == if identity in l.tags then [l] else []
    ensures (forall i :: 0 <= i < |a| ==> identity in a[i].tags) ==> FilteredLooks(a, identity) == a
  {
    var p := (x: Look) => identity in x.tags;
    Seqs.FilterConcat(a, b, p);
    assert [l][1..] == [];
    if forall i :: 0 <= i < |a| ==> identity in a[i].tags {
      Seqs.FilterKeepsAll(a, p);
    }
  }

  /** The pool `randomize` draws from: the filtered looks, or the whole table when none match. */
  function Pool(looks: seq<Look>, identity: string): (r: seq<Look>)
    ensures |looks| > 0 ==> |r| > 0
    ensures |FilteredLooks(looks, identity)| > 0 ==> r == FilteredLooks(looks, identity)
    ensures |FilteredLooks(looks, identity)| == 0 ==> r == looks
  {
    var filtered := FilteredLooks(looks, identity);
    if |filtered| > 0 then filtered else looks
  }

  /** A fraction `u` in [0, 1) of a positive `m` lies in [0, m). */
  lemma ScaledBelow(u: real, m: real, x: real)
    requires 0.0 <= u < 1.0 && m > 0.0 && x == u * m
    ensures 0.0 <= x < m
  {
    assert m - x == (1.0 - u) * m;
  }

  /** `Math.floor(u * n)` for `u` in [0, 1): an index into a list of `n` entries. */
  function DrawIndex(u: real, n: nat): (k: nat)
    requires n > 0 && 0.0 <= u < 1.0
    ensures k < n && k as real <= u * n as real < k as real + 1.0
  {
    var x := u * n as real;
    ScaledBelow(u, n as real, x);
    var k := x.Floor;
    assert k as real < n as real;
    k
  }

  /** The draw `k / n` selects index `k`. */
  lemma DrawIndexHits(k: nat, n: nat)
    requires k < n
    ensures 0.0 <= k as real / n as real < 1.0
    ensures DrawIndex(k as real / n as real, n) == k
  {
    var u := k as real / n as real;
    assert u * n as real == k as real;
  }

  /** `pool[Math.floor(u * pool.length)]`: the entry whose slot of [0, 1) holds `u`. */
  function Draw<T>(pool: seq<T>, u: real): (r: T)
    requires |pool| > 0 && 0.0 <= u < 1.0
    ensures r in pool
    ensures exists k :: 0 <= k < |pool| && k as real <= u * |pool| as real < k as real + 1.0 && r == pool[k]
  {
    var k := DrawIndex(u, |pool|);
    pool[k]
  }

  /**
   * `randomize` with `Math.random()` passed in as `u` in [0, 1): the look at
   * `floor(u * |pool|)`. It is in the pool and, when any look matches, tagged
   * with the identity.
   */
  function Randomize(looks: seq<Look>, identity: string, u: real): (r: Look)
    requires |looks| > 0 && 0.0 <= u < 1.0
    ensures r in Pool(looks, identity) && r in looks
    ensures |FilteredLooks(looks, identity)| > 0 ==> identity in r.tags
    ensures var p := Pool(looks, identity);
      exists k :: 0 <= k < |p| && k as real <= u * |p| as real < k as real + 1.0 && r == p[k]
  {
    Draw(Pool(looks, identity), u)
  }

  /** Every pool entry can be drawn: the draw `k / |pool|` picks entry `k`. */
  lemma RandomizeCoversPool(looks: seq<Look>, identity: string, k: nat)
    requires |looks| > 0 && k < |Pool(looks, identity)|
    ensures exists u :: 0.0 <= u < 1.0 && Randomize(looks, identity, u) == Pool(looks, identity)[k]
  {
    var p := Pool(looks, identity);
    var u := k as real / |p| as real;
    DrawIndexHits(k, |p|);
    assert Randomize(looks, identity, u) == Draw(p, u) == p[DrawIndex(u, |p|)];
  }

  /** Each of the eight identities matches at least one look, so the fallback never fires for them. */
  lemma EveryIdentityHasLooks(identity: string)
    requires identity in Identity.Identities
    ensures |FilteredLooks(Looks, identity)| > 0
    ensures Pool(Looks, identity) == FilteredLooks(Looks, identity)
  {
    if identity in Looks[3].tags {
      assert Looks[3] in FilteredLooks(Looks, identity);
    } else {
      assert identity == "Lesbian";
      assert Looks[1] in FilteredLooks(Looks, identity);
    }
  }

  /** Every look is tagged `Trans`, so its pool is the whole table, in order. */
  lemma TransPoolIsAllLooks()
    ensures Pool(Looks, "Trans") == Looks
  {
    Seqs.FilterKeepsAll(Looks, (l: Look) => "Trans" in l.tags);
  }

  /** The fallback to the whole table fires exactly for a value no look is tagged with, never for one of the eight identities. */
  lemma FallbackOnlyForUnknown(identity: string)
    ensures |FilteredLooks(Looks, identity)| == 0 <==> identity !in Looks[0].tags + Looks[1].tags + Looks[2].tags + Looks[3].tags
    ensures |FilteredLooks(Looks, identity)| == 0 ==> identity !in Identity.Identities
  {
    if identity in Identity.Identities {
      EveryIdentityHasLooks(identity);
    }
    if identity in Looks[0].tags + Looks[1].tags + Looks[2].tags + Looks[3].tags {
      var j: nat :| j < 4 && identity in Looks[j].tags;
      assert Looks[j] in FilteredLooks(Looks, identity);
    }
  }
}

=== FILE: suggestions.dfy ===
/**
 * The mocked suggestion endpoint: two static tables and a first-match lookup.
 * The request body's fields are `Option<string>`: `None` stands for a field
 * that is absent or not a string, which never equals a tag. The two-second
 * delay and the JSON parsing of the request are left to the host, and so is a
 * `null` body, on which the handler throws before any lookup.
 */
module Suggestions {
  import opened Optional
  import opened Recommendations
  import Seqs

  datatype Request = Request(gender: Option<string>, age: Option<string>, goal: Option<string>, occasion: Option<string>)

  datatype ExerciseEntry = ExerciseEntry(
    tags: seq<string>, title: string, description: string, duration: string, intensity: Intensity)

  datatype FashionEntry = FashionEntry(
    tags: seq<string>, styleName: string, items: seq<string>, colorPalette: seq<string>)

  /** The fashion part of a response: the style without its tags (and without image fields). */
  datatype FashionReply = FashionReply(styleName: string, items: seq<string>, colorPalette: seq<string>)

  datatype Response = Response(exercise: Exercise, fashion: FashionReply)

  const Exercises: seq<ExerciseEntry> := [
    ExerciseEntry(["build_muscle", "gym", "male"], "Hypertrophy 5x5",
      "Heavy compound lifts (Squat, Bench, Deadlift) focusing on maximal strength and size accrual.",
      "75 mins", High),
    ExerciseEntry(["lose_weight", "outdoor", "female"], "HIIT Trail Run",
      "High-intensity interval sprints on uneven terrain to maximize caloric burn and stability.",
      "45 mins", High),
    ExerciseEntry(["tone", "home"], "Pilates Torch",
      "Control-based bodyweight movements focusing on core stability and muscle lengthening.",
      "50 mins", Medium),
    ExerciseEntry(["endurance", "gym"], "Zone 2 Carpentry",
      "Steady state cardio on the rower or bike, maintaining 65-75% max heart rate.",
      "90 mins", Low),
    ExerciseEntry(["build_muscle", "home"], "Calisthenics Beast",
      "Advanced bodyweight progression: Pistol loops, Planches, and Muscle-ups.",
      "60 mins", High)
  ]

  const Fashions: seq<FashionEntry> := [
    FashionEntry(["gym", "male", "build_muscle"], "Iron Rebel",
      ["Oversized Pump Cover", "5-inch Squat Shorts", "Flat-sole Converse"],
      ["#1C1C1C", "#8B0000", "#FFFFFF"]),
    FashionEntry(["outdoor", "female", "lose_weight"], "Trail Blazer",
      ["Wind-resistent Crop", "Compressed Leggings", "Trail Runners"],
      ["#2F4F4F", "#00FF9C", "#1A1A1A"]),
    FashionEntry(["home", "tone"], "Zen Tech",
      ["Seamless Bodysuit", "Grippy Socks", "Loose Throw-over"],
      ["#B0C4DE", "#FFD700", "#F0F8FF"]),
    FashionEntry(["event"], "Athleisure Prime",
      ["Dri-fit Polo", "Tapered Chinos", "Minimalist Leather Sneakers"],
      ["#000080", "#C0C0C0", "#FFFFFF"])
  ]

  /** `tags.some(t => t === a || t === b)`. */
  predicate HitsEither(tags: seq<string>, a: Option<string>, b: Option<string>) {
    exists i :: 0 <= i < |tags| && (Some(tags[i]) == a || Some(tags[i]) == b)
  }

  /**
   * Entry `i` is what `table.find(e => e.tags.some(t => t === a || t === b)) || table[0]`
   * picks: the first entry tagged with `a` or `b`, or entry 0 when none is.
   */
  ghost predicate Picked(tags: seq<seq<string>>, i: nat, a: Option<string>, b: Option<string>) {
    && i < |tags|
    && (forall j :: 0 <= j < i ==> !HitsEither(tags[j], a, b))
    && (HitsEither(tags[i], a, b) || (i == 0 && forall j :: 0 <= j < |tags| ==> !HitsEither(tags[j], a, b)))
  }

  function ExerciseTags(table: seq<ExerciseEntry>): (r: seq<seq<string>>)
    ensures |r| == |table| && forall i :: 0 <= i < |table| ==> r[i] == table[i].tags
  {
    seq(|table|, i requires 0 <= i < |table| => table[i].tags)
  }

  function FashionTags(table: seq<FashionEntry>): (r: seq<seq<string>>)
    ensures |r| == |table| && forall i :: 0 <= i < |table| ==> r[i] == table[i].tags
  {
    seq(|table|, i requires 0 <= i < |table| => table[i].tags)
  }

  /** The exercise lookup: the index of the entry picked by the goal or the occasion. */
  function ExerciseIndex(table: seq<ExerciseEntry>, goal: Option<string>, occasion: Option<string>): (i: nat)
    requires |table| > 0
    ensures Picked(ExerciseTags(table), i, goal, occasion)
  {
    Seqs.FirstOrHead(table, (e: ExerciseEntry) => HitsEither(e.tags, goal, occasion))
  }

  /** The fashion lookup: the index of the entry picked by the occasion or the gender. */
  function FashionIndex(table: seq<FashionEntry>, occasion: Option<string>, gender: Option<string>): (i: nat)
    requires |table| > 0
    ensures Picked(FashionTags(table), i, occasion, gender)
  {
    Seqs.FirstOrHead(table, (f: FashionEntry) => HitsEither(f.tags, occasion, gender))
  }

  /** Exactly one entry is picked for any keys. */
  lemma PickedUnique(tags: seq<seq<string>>, i: nat, k: nat, a: Option<string>, b: Option<string>)
    requires Picked(tags, i, a, b) && Picked(tags, k, a, b)
    ensures i == k
  {
  }

  /**
   * The response body built from two tables: the named fields of the picked
   * entries, tags dropped.
   */
  function Respond(exercises: seq<ExerciseEntry>, fashions: seq<FashionEntry>, req: Request): (r: Response)
    requires |exercises| > 0 && |fashions| > 0
    ensures forall i :: 0 <= i < |exercises| && Picked(ExerciseTags(exercises), i, req.goal, req.occasion) ==>
      r.exercise == Exercise(exercises[i].title, exercises[i].description, exercises[i].duration, exercises[i].intensity)
    ensures forall j :: 0 <= j < |fashions| && Picked(FashionTags(fashions), j, req.occasion, req.gender) ==>
      r.fashion == FashionReply(fashions[j].styleName, fashions[j].items, fashions[j].colorPalette)
  {
    var i := ExerciseIndex(exercises, req.goal, req.occasion);
    var j := FashionIndex(fashions, req.occasion, req.gender);
    var e := exercises[i];
    var f := fashions[j];
    forall k | 0 <= k < |exercises| && Picked(ExerciseTags(exercises), k, req.goal, req.occasion)
      ensures k == i
    {
      PickedUnique(ExerciseTags(exercises), i, k, req.goal, req.occasion);
    }
    forall k | 0 <= k < |fashions| && Picked(FashionTags(fashions), k, req.occasion, req.gender)
      ensures k == j
    {
      PickedUnique(FashionTags(fashions), j, k, req.occasion, req.gender);
    }
    Response(Exercise(e.title, e.description, e.duration, e.intensity),
             FashionReply(f.styleName, f.items, f.colorPalette))
  }

  /** `POST`: the response for the endpoint's own tables. */
  function Suggest(req: Request): Response {
    Respond(Exercises, Fashions, req)
  }

  /** The age in the request never influences the response. */
  lemma AgeIgnored(exercises: seq<ExerciseEntry>, fashions: seq<FashionEntry>, req: Request, age: Option<string>)
    requires |exercises| > 0 && |fashions| > 0
    ensures Respond(exercises, fashions, req.(age := age)) == Respond(exercises, fashions, req)
  {
  }

  /** A request whose fields are all absent falls back to the first exercise and the first style. */
  lemma UnknownRequestFallsBack(req: Request)
    requires req.goal.None? && req.occasion.None? && req.gender.None?
    ensures Suggest(req).exercise.title == "Hypertrophy 5x5"
    ensures Suggest(req).fashion.styleName == "Iron Rebel"
  {
  }

  /**
   * The fashion lookup is by table order, not by which field matched: a male
   * user dressing for an event gets the gym style, not the event style.
   */
  lemma GenderCanOutrankOccasion()
    ensures Suggest(Request(Some("male"), None, Some("tone"), Some("event"))).fashion.styleName == "Iron Rebel"
    ensures Suggest(Request(Some("male"), None, Some("tone"), Some("event"))).exercise.title == "Pilates Torch"
  {
    assert HitsEither(Fashions[0].tags, Some("event"), Some("male")) by {
      assert Fashions[0].tags[1] == "male";
    }
    assert HitsEither(Exercises[2].tags, Some("tone"), Some("event")) by {
      assert Exercises[2].tags[0] == "tone";
    }
    assert !HitsEither(Exercises[0].tags, Some("tone"), Some("event"));
    assert !HitsEither(Exercises[1].tags, Some("tone"), Some("event"));
  }
}

=== FILE: tasks.dfy ===
/**
 * The task list of `TaskManager`: add, toggle and delete, each written through
 * to local storage, and the count of active tasks. `crypto.randomUUID()` is the
 * parameter `freshId`; local storage maps a key to the parsed list, or to
 * `None` when the stored text does not parse.
 */
module Tasks {
  import opened Optional
  import Seqs
  import Strings

  const TasksKey := "lumina_tasks"

  datatype Task = Task(id: string, text: string, completed: bool)

  type Storage = map<string, Option<seq<Task>>>

  /** The component's state: the list, the text field and the storage it writes to. */
  datatype Board = Board(tasks: seq<Task>, input: string, storage: Storage)

  /** The list shown is the list stored under `lumina_tasks`. */
  predicate Persisted(b: Board) {
    TasksKey in b.storage && b.storage[TasksKey] == Some(b.tasks)
  }

  /** The mount effect: adopt the stored list when there is one that parses; otherwise keep the empty list. */
  function Load(b: Board): (r: Board)
    ensures TasksKey in b.storage && b.storage[TasksKey].Some? ==> r.tasks == b.storage[TasksKey].value
    ensures TasksKey !in b.storage || b.storage[TasksKey].None? ==> r.tasks == b.tasks
    ensures r.input == b.input && r.storage == b.storage
  {
    if TasksKey in b.storage && b.storage[TasksKey].Some? then b.(tasks := b.storage[TasksKey].value) else b
  }

  /** `saveTasks`: set the list and write the same list to storage, touching no other key. */
  function Save(b: Board, ts: seq<Task>): (r: Board)
    ensures r.tasks == ts && Persisted(r) && r.input == b.input
    ensures forall k :: k in b.storage && k != TasksKey ==> k in r.storage && r.storage[k] == b.storage[k]
    ensures r.storage.Keys == b.storage.Keys + {TasksKey}
  {
    b.(tasks := ts, storage := b.storage[TasksKey := Some(ts)])
  }

  /** A saved list survives a reload: a fresh mount over the written storage shows it again. */
  lemma SaveSurvivesReload(b: Board, ts: seq<Task>, mounted: seq<Task>, input: string)
    ensures Load(Board(mounted, input, Save(b, ts).storage)).tasks == ts
  {
  }

  /** `addTask`: a blank entry is ignored; otherwise the trimmed text becomes a new open task on top and the field is cleared. */
  function AddTask(b: Board, freshId: string): (r: Board)
    ensures Strings.AllSpace(b.input) ==> r == b
    ensures !Strings.AllSpace(b.input) ==>
      && |r.tasks| == |b.tasks| + 1
      && r.tasks[0] == Task(freshId, Strings.Trim(b.input), false)
      && Strings.IsTrimOf(r.tasks[0].text, b.input)
      && r.tasks[0].text != []
      && r.tasks[1..] == b.tasks
      && r.input == []
      && Persisted(r)
  {
    var text := Strings.Trim(b.input);
    if text == [] then b
    else Save(b, [Task(freshId, text, false)] + b.tasks).(input := [])
  }

  function Flip(t: Task, id: string): Task {
    if t.id == id then t.(completed := !t.completed) else t
  }

  /** The `tasks.map` inside `toggleTask`: flip `completed` on the tasks with that id, leave the rest. */
  function ToggleAll(ts: seq<Task>, id: string): (r: seq<Task>)
    ensures |r| == |ts|
    ensures forall i :: 0 <= i < |ts| && ts[i].id == id ==>
      r[i].id == id && r[i].text == ts[i].text && r[i].completed == !ts[i].completed
    ensures forall i :: 0 <= i < |ts| && ts[i].id != id ==> r[i] == ts[i]
  {
    if |ts| == 0 then [] else [Flip(ts[0], id)] + ToggleAll(ts[1..], id)
  }

  /** `toggleTask`, written through to storage. */
  function ToggleTask(b: Board, id: string): (r: Board)
    ensures r.tasks == ToggleAll(b.tasks, id) && Persisted(r) && r.input == b.input
  {
    Save(b, ToggleAll(b.tasks, id))
  }

  /** Toggling the same id twice restores the list. */
  lemma ToggleTwice(ts: seq<Task>, id: string)
    ensures ToggleAll(ToggleAll(ts, id), id) == ts
  {
  }

  /** The filter inside `deleteTask`. */
  function RemoveId(ts: seq<Task>, id: string): (r: seq<Task>)
    ensures forall i :: 0 <= i < |r| ==> r[i].id != id && r[i] in ts
    ensures forall i :: 0 <= i < |ts| && ts[i].id != id ==> ts[i] in r
  {
    Seqs.Filter(ts, (t: Task) => t.id != id)
  }

  /** `deleteTask`, written through to storage. */
  function DeleteTask(b: Board, id: string): (r: Board)
    ensures r.tasks == RemoveId(b.tasks, id) && Persisted(r) && r.input == b.input
  {
    Save(b, RemoveId(b.tasks, id))
  }

  /**
   * Deletion keeps the survivors in order: it works piecewise, leaves a list
   * without that id as it is, and drops any task carrying the id wherever it sits.
   */
  lemma DeleteKeepsOrder(a: seq<Task>, c: seq<Task>, t: Task, id: string)
    ensures RemoveId(a + c, id) == RemoveId(a, id) + RemoveId(c, id)
    ensures (forall i :: 0 <= i < |a| ==> a[i].id != id) ==> RemoveId(a, id) == a
    ensures t.id == id ==> RemoveId(a + [t] + c, id) == RemoveId(a + c, id)
  {
    var p := (x: Task) => x.id != id;
    Seqs.FilterConcat(a, c, p);
    if t.id == id {
      Seqs.FilterSkipsRejected(a, t, c, p);
    }
    if forall i :: 0 <= i < |a| ==> a[i].id != id {
      Seqs.FilterKeepsAll(a, p);
    }
  }

  /** The "N ACTIVE" badge: `tasks.filter(t => !t.completed).length`. */
  function ActiveCount(ts: seq<Task>): nat {
    |Seqs.Filter(ts, (t: Task) => !t.completed)|
  }

  /** The badge counts exactly the positions holding an open task. */
  lemma ActiveCountIsOpenPositions(ts: seq<Task>)
    ensures ActiveCount(ts) == |set i: nat | i < |ts| && !ts[i].completed|
  {
    var p := (t: Task) => !t.completed;
    Seqs.FilterLengthCountsHits(ts, p);
    assert Seqs.Hits(ts, p) == set i: nat | i < |ts| && !ts[i].completed;
  }

  /** Adding a task raises the badge by one; a blank entry leaves it. */
  lemma AddTaskCountsOneMore(b: Board, freshId: string)
    ensures !Strings.AllSpace(b.input) ==> ActiveCount(AddTask(b, freshId).tasks) == ActiveCount(b.tasks) + 1
    ensures Strings.AllSpace(b.input) ==> ActiveCount(AddTask(b, freshId).tasks) == ActiveCount(b.tasks)
  {
  }
}

=== FILE: timer.dfy ===
/**
 * The countdown timer of `useTimer`: a focus/break countdown anchored to an
 * absolute deadline. Every operation is a pure transition on `TimerState`; the
 * wall clock (`Date.now()`) is the parameter `now`, in integer milliseconds, and
 * animation-frame scheduling is replaced by explicit `Tick` calls.
 */
module Timer {
  import opened Optional
  import Strings

  datatype Mode = Focus | Break

  /** The full length of a mode, in seconds: 25 minutes of focus, 5 minutes of break. */
  function Nominal(m: Mode): int {
    if m == Focus then 25 * 60 else 5 * 60
  }

  function Other(m: Mode): Mode {
    if m == Focus then Break else Focus
  }

  type Positive = n: int | n > 0 witness 1

  /**
   * The hook's state: `timeLeft` (seconds), `isActive`, `mode`, `progress`
   * (percent) and the two refs `endTime` (deadline in ms, `null` when cleared)
   * and `initialDuration` (the progress baseline, in seconds).
   */
  datatype TimerState = TimerState(
    timeLeft: int,
    isActive: bool,
    mode: Mode,
    progress: real,
    endTime: Option<int>,
    initialDuration: Positive)

  /** `remaining / initialDuration * 100`, an unclamped quotient. */
  function Percent(remaining: int, base: Positive): real {
    remaining as real / base as real * 100.0
  }

  /** The state the hook mounts with. */
  function Initial(): TimerState {
    TimerState(25 * 60, false, Focus, 100.0, None, 25 * 60)
  }

  /**
   * What holds of every state the operations can reach: the baseline is the
   * nominal length of the current mode, `progress` is derived from `timeLeft`,
   * and a running timer has a deadline. (An inactive timer may still hold one:
   * expiry does not clear it.)
   */
  predicate Valid(s: TimerState) {
    && s.timeLeft >= 0
    && s.initialDuration == Nominal(s.mode)
    && s.progress == Percent(s.timeLeft, s.initialDuration)
    && (s.isActive ==> s.endTime.Some?)
  }

  /** The tick's guard `if (!endTimeRef.current) return`: a deadline of 0 is falsy too. */
  predicate HasDeadline(s: TimerState) {
    s.endTime.Some? && s.endTime.value != 0
  }

  /** `Math.ceil(ms / 1000)` on integers. */
  function CeilSeconds(ms: int): (r: int)
    ensures (r - 1) * 1000 < ms <= r * 1000
  {
    -((-ms) / 1000)
  }

  /**
   * One animation-frame callback at wall-clock time `now`: recompute the
   * remaining seconds from the deadline; at or past it, stop with zero left.
   */
  function Tick(s: TimerState, now: int): (r: TimerState)
    ensures !HasDeadline(s) ==> r == s
    ensures r.endTime == s.endTime && r.mode == s.mode && r.initialDuration == s.initialDuration
    ensures HasDeadline(s) && s.endTime.value <= now ==>
      r.timeLeft == 0 && r.progress == 0.0 && !r.isActive
    ensures HasDeadline(s) && s.endTime.value > now ==>
      && r.timeLeft > 0
      && (r.timeLeft - 1) * 1000 < s.endTime.value - now <= r.timeLeft * 1000
      && r.progress == Percent(r.timeLeft, s.initialDuration)
      && r.isActive == s.isActive
  {
    if !HasDeadline(s) then s
    else
      var remaining := CeilSeconds(s.endTime.value - now);
      if remaining <= 0 then s.(timeLeft := 0, isActive := false, progress := 0.0)
      else s.(timeLeft := remaining, progress := Percent(remaining, s.initialDuration))
  }

  /** The pause branch of `toggleTimer`: stop and forget the deadline, keep the time left. */
  function Pause(s: TimerState): (r: TimerState)
    ensures !r.isActive && r.endTime.None?
    ensures r.timeLeft == s.timeLeft && r.progress == s.progress
    ensures r.mode == s.mode && r.initialDuration == s.initialDuration
  {
    s.(isActive := false, endTime := None)
  }

  /**
   * The resume branch of `toggleTimer`: a new deadline `timeLeft` seconds from
   * `now`; the baseline is re-recorded only when the time left is the full
   * length of the mode.
   */
  function Resume(s: TimerState, now: int): (r: TimerState)
    ensures r.isActive && r.endTime == Some(now + s.timeLeft * 1000)
    ensures r.timeLeft == s.timeLeft && r.progress == s.progress && r.mode == s.mode
    ensures s.timeLeft == Nominal(s.mode) ==> r.initialDuration == s.timeLeft
    ensures s.timeLeft != Nominal(s.mode) ==> r.initialDuration == s.initialDuration
  {
    var base: Positive := if s.timeLeft == Nominal(s.mode) then s.timeLeft else s.initialDuration;
    s.(endTime := Some(now + s.timeLeft * 1000), initialDuration := base, isActive := true)
  }

  /** `toggleTimer`: pause when running, resume otherwise. */
  function Toggle(s: TimerState, now: int): (r: TimerState)
    ensures r.isActive == !s.isActive
    ensures r.timeLeft == s.timeLeft && r.mode == s.mode
    ensures s.isActive ==> r.endTime.None?
    ensures !s.isActive ==> r.endTime == Some(now + s.timeLeft * 1000)
  {
    if s.isActive then Pause(s) else Resume(s, now)
  }

  /** A stopped timer showing the full length of mode `m`. */
  predicate IsFresh(r: TimerState, m: Mode) {
    && r.mode == m
    && !r.isActive
    && r.endTime.None?
    && r.progress == 100.0
    && r.timeLeft == Nominal(m)
    && r.initialDuration == Nominal(m)
  }

  /** `resetTimer`: stop and restore the full length of the current mode. */
  function Reset(s: TimerState): (r: TimerState)
    ensures IsFresh(r, s.mode) && Valid(r)
  {
    var d := Nominal(s.mode);
    s.(isActive := false, timeLeft := d, initialDuration := d, progress := 100.0, endTime := None)
  }

  /** `switchMode`: flip between focus and break and restore the new mode's full length. */
  function SwitchMode(s: TimerState): (r: TimerState)
    ensures r.mode != s.mode
    ensures IsFresh(r, r.mode) && Valid(r)
  {
    var m := Other(s.mode);
    var d := Nominal(m);
    s.(mode := m, isActive := false, timeLeft := d, initialDuration := d, progress := 100.0, endTime := None)
  }

  /** The mounted state is valid, and every operation keeps a valid state valid. */
  lemma OperationsPreserveValid(s: TimerState, now: int)
    ensures Valid(Initial())
    ensures Valid(s) ==> Valid(Tick(s, now)) && Valid(Toggle(s, now))
    ensures Valid(s) ==> Valid(Pause(s)) && Valid(Resume(s, now))
  {
  }

  /** In a reachable state the fresh-run guard of resume never changes the baseline. */
  lemma ResumeKeepsBaseline(s: TimerState, now: int)
    requires Valid(s)
    ensures Resume(s, now).initialDuration == s.initialDuration == Nominal(s.mode)
  {
  }

  /** `switchMode` is `resetTimer` applied after flipping the mode; switching twice restores the mode. */
  lemma SwitchModeIsResetOfOtherMode(s: TimerState)
    ensures SwitchMode(s) == Reset(s.(mode := Other(s.mode)))
    ensures SwitchMode(SwitchMode(s)).mode == s.mode
    ensures SwitchMode(SwitchMode(s)) == Reset(s)
  {
  }

  /** Resuming and ticking at the same instant shows the same time and progress as before. */
  lemma ResumeThenTickKeepsTime(s: TimerState, now: int)
    requires Valid(s)
    ensures Tick(Resume(s, now), now).timeLeft == s.timeLeft
    ensures Tick(Resume(s, now), now).progress == s.progress
  {
  }

  /** A later tick overrides an earlier one completely: ticks carry no memory of their own. */
  lemma TickOverridesEarlier(s: TimerState, t1: int, t2: int)
    requires t1 <= t2
    ensures Tick(Tick(s, t1), t2) == Tick(s, t2)
  {
  }

  /** Ticks at the successive instants `nows`. */
  function Ticks(s: TimerState, nows: seq<int>): TimerState
    decreases |nows|
  {
    if |nows| == 0 then s else Ticks(Tick(s, nows[0]), nows[1..])
  }

  predicate NonDecreasing(nows: seq<int>) {
    forall i, j :: 0 <= i <= j < |nows| ==> nows[i] <= nows[j]
  }

  /**
   * Drift freedom: after any number of ticks at non-decreasing instants, the
   * state is what a single tick at the last instant gives, however many
   * callbacks ran or were skipped.
   */
  lemma {:induction false} TicksDriftFree(s: TimerState, nows: seq<int>)
    requires |nows| > 0 && NonDecreasing(nows)
    ensures Ticks(s, nows) == Tick(s, nows[|nows| - 1])
    decreases |nows|
  {
    if |nows| > 1 {
      var rest := nows[1..];
      TicksDriftFree(Tick(s, nows[0]), rest);
      assert rest[|rest| - 1] == nows[|nows| - 1];
      TickOverridesEarlier(s, nows[0], nows[|nows| - 1]);
    }
  }

  /** Even with a clock that jumps back, the time shown depends on the last tick's instant only. */
  lemma {:induction false} TicksTimeLeftFromLast(s: TimerState, nows: seq<int>)
    requires |nows| > 0
    ensures Ticks(s, nows).timeLeft == Tick(s, nows[|nows| - 1]).timeLeft
    ensures Ticks(s, nows).endTime == s.endTime
    decreases |nows|
  {
    if |nows| > 1 {
      var rest := nows[1..];
      TicksTimeLeftFromLast(Tick(s, nows[0]), rest);
      assert rest[|rest| - 1] == nows[|nows| - 1];
    }
  }

  /** As the clock advances, neither the time left nor the progress ever grows. */
  lemma TickMonotone(s: TimerState, t1: int, t2: int)
    requires Valid(s) && t1 <= t2
    ensures Tick(s, t2).timeLeft <= Tick(s, t1).timeLeft
    ensures Tick(s, t2).progress <= Tick(s, t1).progress
  {
  }

  /**
   * After a resume at `t0`, a tick at any later instant shows no more than the
   * time left at the resume, so progress stays within [0, 100].
   */
  lemma ForwardTickStaysInRange(s: TimerState, t0: int, t: int)
    requires Valid(s) && s.timeLeft <= s.initialDuration && t0 <= t
    ensures Tick(Resume(s, t0), t).timeLeft <= s.timeLeft
    ensures 0.0 <= Tick(Resume(s, t0), t).progress <= 100.0
  {
  }

  /**
   * A pause costs nothing: resumed at `tr` after any pause, the time shown `d`
   * ms later is the time left at the pause minus `d`, rounded up.
   */
  lemma PauseTimeNotCounted(s: TimerState, tp: int, tr: int, d: int)
    requires Valid(s) && s.isActive && tr > 0 && d >= 0
    ensures Toggle(s, tp).timeLeft == s.timeLeft
    ensures Tick(Toggle(Toggle(s, tp), tr), tr + d).timeLeft
            == if s.timeLeft * 1000 <= d then 0 else CeilSeconds(s.timeLeft * 1000 - d)
  {
  }

  /** Expiry stops the timer but leaves the deadline in place. */
  lemma ExpiryKeepsDeadline()
    ensures var r := Tick(Resume(Initial(), 1), 2_000_000);
      !r.isActive && r.timeLeft == 0 && r.endTime == Some(1_500_001)
  {
  }

  /** Progress is not clamped: a tick at an instant before the resume shows more than 100%. */
  lemma ProgressUnclamped()
    ensures Tick(Resume(Initial(), 10_000), 0).progress > 100.0
  {
  }

  /** A focus run started at 0 shows one second left 1 ms before the deadline, and stops at it. */
  lemma FocusRunScenario()
    ensures var r := Tick(Resume(Initial(), 0), 1_499_999); r.timeLeft == 1 && r.isActive
    ensures var r := Tick(Resume(Initial(), 0), 1_500_000); r.timeLeft == 0 && !r.isActive
  {
  }

  /**
   * `formatTime`: minutes are `Math.floor(seconds / 60)` (Dafny's division by a
   * positive divisor also floors) and seconds are JavaScript's `seconds % 60`,
   * which truncates toward zero; both are zero-padded to two characters.
   */
  function FormatTime(seconds: int): (r: string)
    ensures seconds >= 0 ==>
      && |r| >= 5 && r[|r| - 3] == ':'
      && Strings.AllDigits(r[..|r| - 3]) && Strings.AllDigits(r[|r| - 2..])
      && Strings.DigitsValue(r[..|r| - 3]) == seconds / 60
      && Strings.DigitsValue(r[|r| - 2..]) == seconds % 60
  {
    var mins := seconds / 60;
    var secs := if seconds >= 0 then seconds % 60 else -((-seconds) % 60);
    var mm := Strings.PadTwo(Strings.IntToString(mins));
    var ss := Strings.PadTwo(Strings.IntToString(secs));
    if seconds >= 0 then
      Strings.PaddedDigits(mins);
      Strings.PaddedDigits(secs);
      var r := mm + ":" + ss;
      assert r[..|r| - 3] == mm && r[|r| - 2..] == ss;
      r
    else mm + ":" + ss
  }

  /** Below 100 minutes the display is exactly `MM:SS`, with seconds below 60. */
  lemma FormatTimeIsClock(seconds: int)
    requires 0 <= seconds < 6000
    ensures var r := FormatTime(seconds);
      && |r| == 5 && r[2] == ':'
      && Strings.AllDigits(r[..2]) && Strings.AllDigits(r[3..])
      && Strings.DigitsValue(r[3..]) < 60
      && Strings.DigitsValue(r[..2]) * 60 + Strings.DigitsValue(r[3..]) == seconds
  {
    Strings.PaddedDigits(seconds / 60);
  }
}
